=== FILE: README.md ===
# CTC sequence-discriminative KD criterion — a Dafny model

This project models the discrete core of the fairseq criterion
`fairseq/criterions/ctc_sdt_kd.py`. The criterion adds a sequence-discriminative
knowledge-distillation term to a CTC loss. Around the tensor arithmetic, the
criterion does five pieces of discrete work, and these are modelled and proved
about here:

- **Padding.** `pad_list` right-pads variable-length rows into one
  rectangular buffer (`pad_list.dfy`).
- **Candidate set.** `txt_augment` returns the ground-truth batch, followed by
  three corrupted copies per augmentation round (`augment.dfy`, with the word
  structure of a letter row in `words.dfy`). The copies are a word-span swap,
  a span deletion and a repetition insertion. Every random draw (the value of
  `torch.randperm(m)[0]`, the `random.random()` sort keys) is an explicit
  parameter. Each `randperm` draw is constrained to the range the source's
  call gives it. The sort keys are any reals rather than values in [0, 1):
  only their order matters to the sort.
- **Edit-distance matrix.** This is the (batch × candidate) matrix of
  length-normalised Levenshtein distances between the printed reference and
  each printed candidate. The legacy linear soft labels computed from one row
  of it are modelled too (`edit_distance.dfy`).
- **CTC inputs.** The input lengths, the target mask, the flattened targets,
  the target lengths, the token count and the sample size that feed the CTC
  loss (`lengths.dfy`).
- **Validation and reduction.** Greedy CTC decoding and the character/word
  error counters of validation (`evaluation.dfy`). The logging record, and its
  reduction by `reduce_metrics` into the loss and error rates
  (`metrics.dfy`).

Tensors that the source allocates and then fills in place are `array2`:

- the `pad_list` buffer;
- the three `torch.ones` buffers of every augmentation round;
- the `levenshtein` matrix.

The methods that fill them are proved against per-row specification
functions. Pure derivations are functions on sequences: masks, lengths, the
greedy collapse, and the sums of `reduce_metrics`. Python exceptions
(`IndexError` on an empty `randperm`, `ValueError` on `max()` of nothing,
`ZeroDivisionError`) are modelled as `Failure` values of a `Result` type.

Two divisions in the code have no guard, and the model keeps that:

- **Normalised edit distance.** The code divides by
  `max(len(ref), len(denom))` with no guard, so a cell whose two strings are
  both empty raises `ZeroDivisionError`; `EditDistance.LevenshteinMatrix`
  returns `Failure(DivisionByZero)`.
- **Zero denominators in `reduce_metrics`.** The loss is divided by the
  summed sample size, and the nll loss by the summed token count, with no
  guard, so a zero there raises `ZeroDivisionError`; `Metrics.Reduce` returns
  `Failure(DivisionByZero)`. Only the derived rates `uer`, `wer` and
  `raw_wer` are guarded, by not being logged over a zero total.

## Model

| member | source | states |
|---|---|---|
| PadList.MaxLen | fairseq/criterions/ctc_sdt_kd.py:49 | the result bounds the length of every row and is the length of some row |
| PadList.PadList | fairseq/criterions/ctc_sdt_kd.py:47-55 | fails exactly on an empty list; otherwise a fresh `len(xs)` × max-length buffer whose row i starts with `xs[i]` and holds the pad value everywhere after it |
| Common.Visible | fairseq/criterions/ctc_sdt_kd.py:204 | the printed tokens hold no eos/bos, come from the row, and are the whole row when it has none |
| Common.VisibleCounts | fairseq/criterions/ctc_sdt_kd.py:204 | printing keeps every token other than eos/bos exactly as often as the row holds it |
| Common.VisibleAppend | fairseq/criterions/ctc_sdt_kd.py:204 | printing keeps the order of the tokens: the printed form of a concatenation is the concatenation of the printed forms |
| Words.Split | fairseq/criterions/ctc_sdt_kd.py:211 | splitting on the word boundary yields at least one piece and no piece contains the boundary |
| Words.JoinSplit | fairseq/criterions/ctc_sdt_kd.py:211-216 | joining the pieces of a split on the word boundary gives the row back |
| Words.SplitJoin | fairseq/criterions/ctc_sdt_kd.py:211-216 | splitting a join of boundary-free words gives the same words back |
| Words.TokensOfPermutation | fairseq/criterions/ctc_sdt_kd.py:215-216 | reordering words keeps the multiset of their tokens |
| Words.JoinPermutation | fairseq/criterions/ctc_sdt_kd.py:215-216 | the joined line of a reordering has the same length and the same multiset of tokens |
| Words.LetterWordsShape | fairseq/criterions/ctc_sdt_kd.py:580-583 | letter post-processing yields non-empty, boundary-free words whose tokens all come from the printed row |
| Augment.SortByKeySorted | fairseq/criterions/ctc_sdt_kd.py:200 | `sorted(..., key=random)` puts the span's (key, word) pairs in ascending key order |
| Augment.SortByKeyPermutes | fairseq/criterions/ctc_sdt_kd.py:200 | the sorted pairs, and the words they carry, are a permutation of the input |
| Augment.PartialShuffle | fairseq/criterions/ctc_sdt_kd.py:199-201 | the prefix before `imin`, the suffix from `imax` and the length are unchanged |
| Augment.PartialShufflePermutes | fairseq/criterions/ctc_sdt_kd.py:199-201 | the span `lst[imin:imax]`, and so the whole list, is a permutation of the original |
| Augment.SwapLen | fairseq/criterions/ctc_sdt_kd.py:213 | for n > 3 words, `2 <= len_swap <= n-1` and `len_swap <= n/2 + 2` |
| Augment.SwapStart | fairseq/criterions/ctc_sdt_kd.py:214 | `start + len_swap <= n-1`, so the last word is never in the span |
| Augment.SwappedLine | fairseq/criterions/ctc_sdt_kd.py:211-222 | the re-joined line is a permutation of the printed row's tokens, no longer than the row |
| Augment.SwapRow | fairseq/criterions/ctc_sdt_kd.py:209-225 | a row of at most 3 words is copied; otherwise the swapped line (a permutation of the printed tokens) is followed by fill values; the width is unchanged |
| Augment.ShuffledWords | fairseq/criterions/ctc_sdt_kd.py:211-216 | the shuffled word list has as many words as the line; the last word and every word outside the span keep their place, and the span holds the same words |
| Augment.SwappedLineSplits | fairseq/criterions/ctc_sdt_kd.py:216-222 | splitting the re-joined line on the word boundary gives the shuffled word list back |
| Augment.DeleteSpan | fairseq/criterions/ctc_sdt_kd.py:233-238 | for `line_len > k`: `line[:s] ++ line[s+k:line_len]` leads the row, the padding shifts left by k, and the last k cells are fill; otherwise the row is copied; the width is unchanged |
| Augment.DeleteRowAsWritten | fairseq/criterions/ctc_sdt_kd.py:229-239 | the deletion as written raises exactly when `line_len < 2`, and when it returns, `line_len > k` always holds |
| Augment.DeletionAsWrittenRaisesOnOneTokenRow | fairseq/criterions/ctc_sdt_kd.py:232 | a one-token row makes the deletion as written raise |
| Augment.DeleteRow | fairseq/criterions/ctc_sdt_kd.py:229-239 | the corrected deletion copies rows shorter than 2; otherwise `1 <= k <= line_len//2`, the first `line_len-k` cells are `line[:s] ++ line[s+k:line_len]`, the eos/pad tail `line[line_len:]` follows shifted left by k, and the last k cells are fill |
| Augment.DeleteRowAgreesWithCode | fairseq/criterions/ctc_sdt_kd.py:229-239 | wherever the code as written returns a row, the corrected deletion returns the same row |
| Augment.InsertRow | fairseq/criterions/ctc_sdt_kd.py:242-253 | the width grows by `max_len_ins = 4` and `1 <= k <= 4`; a row not longer than k fills the first T cells and the last 4 stay fill |
| Augment.InsertRowRepeats | fairseq/criterions/ctc_sdt_kd.py:247-251 | for `line_len > k`, `line[s]` appears k+1 times from position s; cutting the k inserted copies gives the row back; cells after the shifted row are fill |
| Augment.DeletionUndoesInsertion | fairseq/criterions/ctc_sdt_kd.py:229-253 | deleting the inserted span from an inserted row restores the row, followed by fill values |
| Augment.CopyInto | fairseq/criterions/ctc_sdt_kd.py:235-236 | a slice assignment into one row changes exactly the cells it covers |
| Augment.FillSwapRow | fairseq/criterions/ctc_sdt_kd.py:210-225 | row idx of the buffer becomes `SwapRow` of the input row; other rows are untouched |
| Augment.FillDeletionRow | fairseq/criterions/ctc_sdt_kd.py:230-238 | row idx of the buffer becomes `DeleteRow` of the input row; other rows are untouched |
| Augment.FillInsertionRow | fairseq/criterions/ctc_sdt_kd.py:245-253 | row idx of the buffer becomes `InsertRow` of the input row; other rows are untouched |
| Augment.RandomSwap | fairseq/criterions/ctc_sdt_kd.py:208-226 | a fresh buffer of the input's shape whose every row is `SwapRow` of the input row |
| Augment.RandomDeletion | fairseq/criterions/ctc_sdt_kd.py:228-239 | a fresh buffer of the input's shape whose every row is `DeleteRow` of the input row |
| Augment.RandomInsertion | fairseq/criterions/ctc_sdt_kd.py:241-254 | a fresh buffer 4 cells wider than the input whose every row is `InsertRow` of the input row |
| Augment.TxtAugment | fairseq/criterions/ctc_sdt_kd.py:198-261 | `1 + 3*num_aug` tensors: element 0 is the input tensor itself, then for each round a swap, a deletion and an insertion buffer, each fresh and row-wise specified |
| Augment.AugmentRound | fairseq/criterions/ctc_sdt_kd.py:208-254 | one round yields three fresh buffers: the swap, the deletion and the insertion buffer of the batch |
| Augment.RoundsBuiltSnoc | fairseq/criterions/ctc_sdt_kd.py:207-254 | appending one round's three buffers to the list keeps every earlier round and adds the new one |
| EditDistance.LevSelf | fairseq/criterions/ctc_sdt_kd.py:456 | a string is at distance 0 from itself (the numerator's own distance) |
| EditDistance.LevZero | fairseq/criterions/ctc_sdt_kd.py:456 | distance 0 only between equal sequences |
| EditDistance.LevSymmetric | fairseq/criterions/ctc_sdt_kd.py:456 | the distance is symmetric |
| EditDistance.LevBounds | fairseq/criterions/ctc_sdt_kd.py:455-456 | the distance is at least the length difference and at most the longer length |
| EditDistance.Replace | fairseq/criterions/ctc_sdt_kd.py:382 | `str.replace` scans left to right; the `ReplaceByEmptyShortens` lemma shows replacing by "" never lengthens |
| EditDistance.RowString | fairseq/criterions/ctc_sdt_kd.py:382 | the scored string of a row is no longer than its printed form |
| EditDistance.ReplaceWithoutOccurrence | fairseq/criterions/ctc_sdt_kd.py:382 | a string in which the pattern never occurs is left unchanged by the replacement |
| EditDistance.ReplaceIgnoresTrailingPads | fairseq/criterions/ctc_sdt_kd.py:382 | appending any run of `' <pad>'` to a string does not change what the replacement leaves |
| EditDistance.RowStringIgnoresTrailingPads | fairseq/criterions/ctc_sdt_kd.py:382 | a row that prints at least one symbol is scored the same whatever number of pad tokens follow it |
| EditDistance.RowStringOfPadOnlyRow | fairseq/criterions/ctc_sdt_kd.py:382 | a row that prints only `m > 0` pads is scored as `"<pad>"`, because the first pad has no leading space |
| EditDistance.RowStringWithoutPadding | fairseq/criterions/ctc_sdt_kd.py:382 | a printed row in which `' <pad>'` never occurs is scored exactly as printed |
| EditDistance.Entry | fairseq/criterions/ctc_sdt_kd.py:454-458 | a cell is non-negative, at most 1 when normalised, and 0 exactly when the two strings are equal |
| EditDistance.EntrySymmetric | fairseq/criterions/ctc_sdt_kd.py:454-458 | swapping reference and candidate leaves a cell unchanged |
| EditDistance.EntryNormalized | fairseq/criterions/ctc_sdt_kd.py:455-456 | the normalised cell times the longer length is the raw distance |
| EditDistance.ScoreColumn | fairseq/criterions/ctc_sdt_kd.py:451-458 | fills one candidate column row by row, each cell asserted zero first; fails exactly on a row whose normalised cell would divide by zero |
| EditDistance.LevenshteinMatrix | fairseq/criterions/ctc_sdt_kd.py:378-383 | zero-initialised B × #candidates matrix; column 0 stays 0; every other cell is the (normalised) distance of the reference and candidate strings; fails exactly when a normalised cell has two empty strings |
| EditDistance.LinearSoftLabels | fairseq/criterions/ctc_sdt_kd.py:499-502 | `(max - d) / sum(max - d)` has one label per candidate |
| EditDistance.LinearSoftLabelsUndefinedIffConstant | fairseq/criterions/ctc_sdt_kd.py:499-502 | the labels are undefined (NaN) exactly when all distances of the row are equal |
| EditDistance.LinearSoftLabelsDistribution | fairseq/criterions/ctc_sdt_kd.py:499-502 | defined labels are non-negative and sum to 1 |
| EditDistance.LinearSoftLabelsAntitone | fairseq/criterions/ctc_sdt_kd.py:499-502 | a smaller distance never gets a smaller label |
| EditDistance.LinearSoftLabelsStrictlyAntitone | fairseq/criterions/ctc_sdt_kd.py:499-502 | two different distances make the labels defined, and the strictly smaller distance gets the strictly larger label |
| EditDistance.NumeratorLabelIsMaximal | fairseq/criterions/ctc_sdt_kd.py:499-502 | the ground truth (distance 0) gets the largest label of its row, strictly larger than every candidate at a positive distance |
| Lengths.MaskedSelectLength | fairseq/criterions/ctc_sdt_kd.py:304 | `masked_select` keeps as many entries as the mask has set bits |
| Lengths.TargetMask | fairseq/criterions/ctc_sdt_kd.py:301-303 | a mask bit is set exactly for tokens that are neither pad nor eos |
| Lengths.KeptTokensCounts | fairseq/criterions/ctc_sdt_kd.py:301-304 | the masked row keeps every non-pad, non-eos token as often as the row has it, and no pad or eos |
| Lengths.KeptTokensOfCleanRow | fairseq/criterions/ctc_sdt_kd.py:301-304 | a row without pad or eos is selected unchanged |
| Lengths.DerivedTargetLengths | fairseq/criterions/ctc_sdt_kd.py:308 | one length per row, each the number of that row's tokens that are neither pad nor eos (so between 0 and the row width) |
| Lengths.TargetLengths | fairseq/criterions/ctc_sdt_kd.py:305-308 | the batch's `target_lengths` when present, else the derived lengths; `DerivedLengthsSliceTargets` and `NTokensCountsKeptTargets` state what the derived ones mean |
| Lengths.DerivedLengthsCoverTargets | fairseq/criterions/ctc_sdt_kd.py:301-308 | the derived target lengths add up to the length of the flattened targets |
| Lengths.DerivedLengthsSliceTargets | fairseq/criterions/ctc_sdt_kd.py:301-308 | reading `target_lengths[i]` flat targets after the first `target_lengths[0] + … + target_lengths[i-1]` gives exactly row i's kept tokens, which is how the CTC loss pairs utterances with targets |
| Lengths.TargetsFlatClean | fairseq/criterions/ctc_sdt_kd.py:304 | the flattened targets hold no pad and no eos |
| Lengths.NonPaddingFrames | fairseq/criterions/ctc_sdt_kd.py:294-295 | an utterance's non-padding frames and its padded frames add up to its frame count |
| Lengths.NoPaddingCountsAllFrames | fairseq/criterions/ctc_sdt_kd.py:294-295 | without padding every frame counts |
| Lengths.InputLengthsWithoutPadding | fairseq/criterions/ctc_sdt_kd.py:290-299 | a padding mask that pads nothing gives the same input lengths as having no mask |
| Lengths.InputLengths | fairseq/criterions/ctc_sdt_kd.py:290-299 | `src_lengths` if given; else one count per utterance, its frames minus its padded frames; else the output length for every utterance |
| Lengths.NTokens | fairseq/criterions/ctc_sdt_kd.py:523-525 | the batch's `ntokens` when present, else the sum of the target lengths; `NTokensCountsKeptTargets` states that the derived count is the number of kept target tokens |
| Lengths.SampleSize | fairseq/criterions/ctc_sdt_kd.py:527 | sentences under `sentence_avg`, tokens otherwise; `Metrics.TokenAveragedPassesLogNoNllLoss` and `Metrics.SentenceAveragedLossIsPerSentence` state what each choice means for the reduced loss |
| Lengths.NTokensCountsKeptTargets | fairseq/criterions/ctc_sdt_kd.py:301-308 | with neither count given, the token count is the number of kept target tokens |
| Evaluation.SliceTo | fairseq/criterions/ctc_sdt_kd.py:553 | `lp[:inp_l]` is a prefix, of length `min(inp_l, T)` for a non-negative `inp_l` |
| Evaluation.UniqueConsecutive | fairseq/criterions/ctc_sdt_kd.py:574 | the collapse is no longer than its input, empty only for empty input, starts with the same element, and uses only input elements |
| Evaluation.UniqueConsecutiveHasNoRepeats | fairseq/criterions/ctc_sdt_kd.py:574 | after collapsing, no two neighbours are equal |
| Evaluation.UniqueConsecutiveFixesCollapsed | fairseq/criterions/ctc_sdt_kd.py:574 | a sequence without equal neighbours is unchanged |
| Evaluation.UniqueConsecutiveIdempotent | fairseq/criterions/ctc_sdt_kd.py:574 | collapsing twice equals collapsing once |
| Evaluation.UniqueConsecutiveIgnoresStutter | fairseq/criterions/ctc_sdt_kd.py:574 | repeating any frame's label once more does not change the collapse |
| Evaluation.DropToken | fairseq/criterions/ctc_sdt_kd.py:575 | the result holds no blank and only input elements |
| Evaluation.DropTokenCounts | fairseq/criterions/ctc_sdt_kd.py:575 | dropping the blank keeps every other token exactly as often as it occurs |
| Evaluation.DropTokenAppend | fairseq/criterions/ctc_sdt_kd.py:575 | dropping the blank keeps the order of the other tokens: it distributes over concatenation |
| Evaluation.Greedy | fairseq/criterions/ctc_sdt_kd.py:553-575 | the prediction holds no blank and is no longer than the frames or the input length |
| Evaluation.AddCharErrors | fairseq/criterions/ctc_sdt_kd.py:577-578 | the character error counter grows by the token-level edit distance between the collapsed prediction and the kept target, the length counter by the target's token count |
| Evaluation.AddWordErrors | fairseq/criterions/ctc_sdt_kd.py:585-592 | the raw word error counter always grows by the distance of the undecoded prediction's words; the decoded counter grows by the decoder's word distance when a hypothesis with words exists, otherwise by that same raw distance |
| Evaluation.AccumulateItem | fairseq/criterions/ctc_sdt_kd.py:567-594 | one utterance adds its character distance, target length, decoded and raw word distances and word count |
| Evaluation.EvaluateBatch | fairseq/criterions/ctc_sdt_kd.py:541-600 | the loop's counters equal the in-order sum of the per-utterance counts |
| Evaluation.NoDecoderSameWordErrors | fairseq/criterions/ctc_sdt_kd.py:589-592 | without decoder words, `w_errors == wv_errors` |
| Evaluation.CharTotalCountsKeptTargets | fairseq/criterions/ctc_sdt_kd.py:567-578 | `c_total` is the number of target tokens that are neither pad nor eos; when the batch has no `target_label`, this is the length of the loss's flattened targets |
| Evaluation.ItemCharErrors | fairseq/criterions/ctc_sdt_kd.py:574-577 | an utterance's character errors lie between the length difference and the longer length, and are 0 exactly when the prediction is the target |
| Metrics.TotalAppend | fairseq/criterions/ctc_sdt_kd.py:608-635 | the field sum over concatenated record lists is the sum of the two sums |
| Metrics.TotalOfAbsentField | fairseq/criterions/ctc_sdt_kd.py:608-635 | a field that no record has sums to 0 (`log.get(key, 0)`) |
| Metrics.ForwardRecord | fairseq/criterions/ctc_sdt_kd.py:527-533 | the record carries loss, ntokens, nsentences and sample size, and the five counters exactly when evaluated (596-600); `TrainingPassesDeriveNoRates` and `ForwardRecordCarriesWordErrors` state what that means after reduction |
| Metrics.Rate | fairseq/criterions/ctc_sdt_kd.py:638-663 | a rate is derived exactly when its total is positive, and then `rate * total == 100 * errors` |
| Metrics.Reduce | fairseq/criterions/ctc_sdt_kd.py:605-663 | fails exactly on a zero sample size, or on a zero token count that differs from it; the loss is the loss sum / sample size / ln 2; ntokens and nsentences are the field sums; `nll_loss` exists exactly when sample size != ntokens; the counters are field sums; uer, wer and raw_wer are `100 * errors / total` of the summed fields, logged exactly when the total is positive |
| Metrics.ReduceDependsOnTotalsOnly | fairseq/criterions/ctc_sdt_kd.py:605-663 | two record lists with equal field sums reduce alike |
| Metrics.Summed | fairseq/criterions/ctc_sdt_kd.py:666-672 | the summed record holds exactly the reduced fields, each the field's total; `ReduceOfSummed` states that reducing it loses nothing |
| Metrics.ReduceOfSummed | fairseq/criterions/ctc_sdt_kd.py:666-672 | reducing the pre-summed record gives the same metrics as reducing all records |
| Metrics.ReduceOrderIndependent | fairseq/criterions/ctc_sdt_kd.py:666-672 | records of different workers may come in either order |
| Metrics.ReduceAcrossWorkers | fairseq/criterions/ctc_sdt_kd.py:666-672 | summing each worker's records first, then reducing, gives the same metrics |
| Metrics.LoggingOutputsCanBeSummed | fairseq/criterions/ctc_sdt_kd.py:666-672 | the declaration holds: for every record list, reducing its sum equals reducing it |
| Metrics.TrainingRecordsDeriveNoRates | fairseq/criterions/ctc_sdt_kd.py:638-663 | records without counters derive no uer, wer or raw_wer |
| Metrics.TrainingPassesDeriveNoRates | fairseq/criterions/ctc_sdt_kd.py:527-533 | records of passes that logged no counters reduce to no uer, wer or raw_wer |
| Metrics.TotalsAgree | fairseq/criterions/ctc_sdt_kd.py:608-614 | two fields equal in every record have equal sums |
| Metrics.TokenAveragedPassesLogNoNllLoss | fairseq/criterions/ctc_sdt_kd.py:527 | without `sentence_avg`, sample size and ntokens sum alike: the reduction fails exactly when no token was seen and never logs a separate nll loss (line 622) |
| Metrics.SentenceAveragedLossIsPerSentence | fairseq/criterions/ctc_sdt_kd.py:527 | under `sentence_avg`, the reduced loss is the summed loss per sentence in bits |
| Metrics.ForwardRecordCarriesWordErrors | fairseq/criterions/ctc_sdt_kd.py:596-597 | a validation record carries its batch's word error counters |
| Metrics.NoDecoderWerEqualsRawWer | fairseq/criterions/ctc_sdt_kd.py:589-592 | with no decoder, the reduced `wer` equals `raw_wer` |

## Left out

- `F.ctc_loss`: a library dynamic program over floating-point log probabilities. Only its integer inputs (lengths, flattened targets) are modelled.
- The frozen language model (`lm_forward`, `lm_forward_roberta`, RoBERTa loading), `mas`, the score matrices, matmul/max/mean reductions, `torch.softmax` soft labels, `KLDivLoss` and `alpha_kd`: floating-point tensor numerics and foreign calls. The LM-based perturbation and the `use_batch_samples` branch are switched off in the code and are not modelled.
- The argmax of each frame's log probabilities is an input (`EvalItem.argmaxFrames`), not computed from floats.
- `W2lKenLMDecoder`: an external beam decoder. Its best hypothesis's words are an input (`EvalItem.decodedWords`), `None` when there is no decoder, no hypothesis or no `words` entry.
- `post_process` is modelled only for the `letter` mode, on tokens. It assumes that no symbol contains white space or `|`, and that no symbol is empty. The word-level distance is taken over the printed words (`Evaluation.WordStrings`).
- The validation loop scores against `sample["target_label"]` when the batch has one (fairseq/criterions/ctc_sdt_kd.py:548-550) and against `sample["target"]` otherwise. The model takes whichever rows were chosen as `EvalItem.target`; it does not model that choice.
- `Dictionary.string` is modelled only as the criterion uses it: `Common.Visible` drops eos and bos, and `EditDistance.DictString` joins the printed symbols with single spaces. `encode_line` is not part of this model: the swap corruption is modelled on tokens. This assumes that printing a row and re-encoding its swapped line gives back the same tokens. That holds when every symbol but `<pad>` is a single character; `<pad>` is restored by the code's `.replace('< p a d >','<pad>')`, but a swapped row holding `<unk>` or another multi-character symbol would come back as several tokens, which the model does not capture.
- R-Drop duplication, device placement, dtype casts, and the 1-in-3000 diagnostic printing: tensor plumbing and logging.
- `metrics.log_scalar`/`log_derived`, `safe_round` and the NaN fallbacks inside the derived lambdas. The fallbacks are unreachable behind the `> 0` guards. The values handed to the logger are modelled; the rounding is not.
- Real numbers stand for floats: no rounding, overflow or NaN propagation.
- Integer tensors use unbounded integers: `int64` overflow is not modelled.
- `pad_list` is modelled for one-dimensional rows: the trailing `*xs[0].size()[1:]` dimensions are not.
- `zip` in the validation loop is taken over equally long inputs: the batch is given as a list of utterance records.
- Augment.RandomDeletion: uses the corrected per-row deletion `DeleteRow`. The code as written raises on rows shorter than 2 (see Findings), and `DeleteRowAsWritten` models that.
- Augment.TxtAugment: never fails, because it uses `RandomDeletion`. The code's `txt_augment` raises on any batch with a target row shorter than 2.
- `2_combine_960.py` and `2_filtering_libri960.py`: file I/O scripts.

## Findings

| source | as written | input that shows it | evidently intended | confidence | as-written member | corrected member |
|---|---|---|---|---|---|---|
| fairseq/criterions/ctc_sdt_kd.py:232-239 | `torch.randperm(line_len // 2)[0]` is evaluated before the `if line_len > rand_len_to_del` test; for `line_len < 2` the permutation is empty and indexing it raises, and for `line_len >= 2` the test always holds, so the `else` copy is dead code | a batch row with target length 1 (e.g. row `[7, 1]`, length 1) | a row too short to delete from is copied unchanged, as the `else` branch does | not executed | Augment.DeleteRowAsWritten, Augment.DeletionAsWrittenRaisesOnOneTokenRow | Augment.DeleteRow |

=== FILE: augment.dfy ===
/**
 * `txt_augment`: the candidate set of the sequence-discriminative loss. Entry 0
 * is the ground-truth batch itself; every augmentation round appends three
 * corrupted copies of it: a word-span swap, a span deletion and a repetition
 * insertion. The random draws are explicit parameters: a `pick` or `offset`
 * is the value of `torch.randperm(m)[0]` (any `0 <= v < m`), and `keys` are the
 * `random.random()` values `partial_shuffle` sorts a span by.
 */
module Augment {
  import opened Common
  import opened Words

  // ---------------------------------------------------------------------------
  // partial_shuffle: `lst[imin:imax] = sorted(lst[imin:imax], key=random)`

  /** Keys in ascending order. */
  predicate KeysSorted<W>(ps: seq<(real, W)>)
  {
    forall i, j :: 0 <= i < j < |ps| ==> ps[i].0 <= ps[j].0
  }

  /** The items of (key, item) pairs, keys dropped. */
  function Items<W>(ps: seq<(real, W)>): (r: seq<W>)
    ensures |r| == |ps|
    ensures forall i :: 0 <= i < |ps| ==> r[i] == ps[i].1
  {
    if ps == [] then [] else [ps[0].1] + Items(ps[1..])
  }

  /** Put `p` in front of the first pair whose key is not below its own. */
  function Insert<W(==)>(p: (real, W), ps: seq<(real, W)>): (r: seq<(real, W)>)
    ensures |r| == |ps| + 1
    ensures multiset(r) == multiset(ps) + multiset{p}
  {
    if ps == [] || p.0 <= ps[0].0 then [p] + ps
    else
      assert ps == [ps[0]] + ps[1..];
      [ps[0]] + Insert(p, ps[1..])
  }

  lemma {:induction false} InsertItems<W>(p: (real, W), ps: seq<(real, W)>)
    ensures multiset(Items(Insert(p, ps))) == multiset(Items(ps)) + multiset{p.1}
  {
    if ps == [] || p.0 <= ps[0].0 {
      assert Insert(p, ps)[1..] == ps;
    } else {
      InsertItems(p, ps[1..]);
      assert Insert(p, ps)[1..] == Insert(p, ps[1..]);
    }
  }

  /** Every key of `Insert(p, ps)` is at least a common lower bound of `p` and `ps`. */
  lemma {:induction false} InsertBound<W>(p: (real, W), ps: seq<(real, W)>, b: real)
    requires b <= p.0
    requires forall i :: 0 <= i < |ps| ==> b <= ps[i].0
    ensures forall i :: 0 <= i < |Insert(p, ps)| ==> b <= Insert(p, ps)[i].0
  {
    if ps != [] && p.0 > ps[0].0 {
      InsertBound(p, ps[1..], b);
      assert Insert(p, ps) == [ps[0]] + Insert(p, ps[1..]);
    }
  }

  lemma {:induction false} InsertSorted<W>(p: (real, W), ps: seq<(real, W)>)
    requires KeysSorted(ps)
    ensures KeysSorted(Insert(p, ps))
  {
    if ps != [] && p.0 > ps[0].0 {
      var rest := Insert(p, ps[1..]);
      InsertSorted(p, ps[1..]);
      InsertBound(p, ps[1..], ps[0].0);
      assert Insert(p, ps) == [ps[0]] + rest;
    }
  }

  /** `sorted(ps, key=first)`, an insertion sort that keeps equal keys in order. */
  function SortByKey<W(==)>(ps: seq<(real, W)>): (r: seq<(real, W)>)
    ensures |r| == |ps|
  {
    if ps == [] then [] else Insert(ps[0], SortByKey(ps[1..]))
  }

  /** The sort puts the keys in ascending order. */
  lemma {:induction false} SortByKeySorted<W>(ps: seq<(real, W)>)
    ensures KeysSorted(SortByKey(ps))
  {
    if ps != [] {
      SortByKeySorted(ps[1..]);
      InsertSorted(ps[0], SortByKey(ps[1..]));
    }
  }

  /** Sorting only reorders: the pairs, and so the items, are a permutation of the input. */
  lemma SortByKeyPermutes<W>(ps: seq<(real, W)>)
    ensures multiset(SortByKey(ps)) == multiset(ps)
    ensures multiset(Items(SortByKey(ps))) == multiset(Items(ps))
  {
    SortByKeyPermutesPairs(ps);
    SortByKeyPermutesItems(ps);
  }

  lemma {:induction false} SortByKeyPermutesPairs<W>(ps: seq<(real, W)>)
    ensures multiset(SortByKey(ps)) == multiset(ps)
  {
    if ps != [] {
      var tail := ps[1..];
      SortByKeyPermutesPairs(tail);
      assert multiset(ps) == multiset(tail) + multiset{ps[0]} by {
        assert ps == [ps[0]] + tail;
      }
    }
  }

  lemma {:induction false} SortByKeyPermutesItems<W>(ps: seq<(real, W)>)
    ensures multiset(Items(SortByKey(ps))) == multiset(Items(ps))
  {
    if ps != [] {
      var tail := ps[1..];
      SortByKeyPermutesItems(tail);
      var rest := SortByKey(tail);
      assert SortByKey(ps) == Insert(ps[0], rest);
      InsertItems(ps[0], rest);
      assert Items(ps) == [ps[0].1] + Items(tail);
    }
  }

  /** Attach key `ks[i]` to item `ws[i]`. */
  function Zip<W>(ks: seq<real>, ws: seq<W>): (r: seq<(real, W)>)
    requires |ks| == |ws|
    ensures Items(r) == ws
  {
    seq(|ws|, i requires 0 <= i < |ws| => (ks[i], ws[i]))
  }

  /**
   * `partial_shuffle(lst, imin, imax)`: the span `lst[imin:imax]` is put in the
   * order of the random keys drawn for its items; nothing outside it moves.
   */
  function PartialShuffle<W(==)>(lst: seq<W>, imin: nat, imax: nat, keys: seq<real>): (r: seq<W>)
    requires imin <= imax <= |lst|
    requires |keys| == imax - imin
    ensures |r| == |lst|
    ensures r[..imin] == lst[..imin]
    ensures r[imax..] == lst[imax..]
  {
    var span := Items(SortByKey(Zip(keys, lst[imin..imax])));
    var r := lst[..imin] + span + lst[imax..];
    assert r[..imin] == lst[..imin];
    assert r[imax..] == lst[imax..];
    r
  }

  /** The shuffle only reorders the span: the span, and so the whole list, keep their items. */
  lemma PartialShufflePermutes<W>(lst: seq<W>, imin: nat, imax: nat, keys: seq<real>)
    requires imin <= imax <= |lst|
    requires |keys| == imax - imin
    ensures multiset(PartialShuffle(lst, imin, imax, keys)[imin..imax]) == multiset(lst[imin..imax])
    ensures multiset(PartialShuffle(lst, imin, imax, keys)) == multiset(lst)
  {
    var pre, orig, suf := lst[..imin], lst[imin..imax], lst[imax..];
    var span := Items(SortByKey(Zip(keys, orig)));
    SpanPermuted(orig, keys);
    assert PartialShuffle(lst, imin, imax, keys) == pre + span + suf;
    assert lst == pre + orig + suf;
    MiddleReplaced(pre, orig, span, suf);
  }

  /** Replacing the middle part of a list by a reordering of it. */
  lemma MiddleReplaced<W>(pre: seq<W>, a: seq<W>, b: seq<W>, suf: seq<W>)
    requires multiset(a) == multiset(b)
    ensures (pre + b + suf)[|pre|..|pre| + |b|] == b
    ensures multiset(pre + b + suf) == multiset(pre + a + suf)
  {
    assert (pre + b + suf)[|pre|..|pre| + |b|] == b;
  }

  /** The sorted span is a reordering of the span. */
  lemma SpanPermuted<W>(span: seq<W>, keys: seq<real>)
    requires |keys| == |span|
    ensures |Items(SortByKey(Zip(keys, span)))| == |span|
    ensures multiset(Items(SortByKey(Zip(keys, span)))) == multiset(span)
  {
    SortByKeyPermutes(Zip(keys, span));
  }

  // ---------------------------------------------------------------------------
  // Random word-span swap (one row)

  /** The draws of the swap corruption for one row. */
  datatype SwapDraw = SwapDraw(pick: nat, offset: nat, keys: seq<real>)

  /** `len_swap = min(randperm(n)[0] // 2 + 2, n - 1)` for a line of `n > 3` words. */
  function SwapLen(n: nat, pick: nat): (k: nat)
    requires n > 3
    requires pick < n
    ensures 2 <= k <= n - 1
    ensures k <= n / 2 + 2
  {
    Min(pick / 2 + 2, n - 1)
  }

  /**
   * `start_position = min(offset, n - len_swap - 1)`: the span ends before the
   * last word, the one that carries the row's trailing padding.
   */
  function SwapStart(n: nat, k: nat, offset: nat): (s: nat)
    requires 2 <= k <= n - 1
    ensures s + k <= n - 1
    ensures s <= offset
  {
    Min(offset, n - k - 1)
  }

  /** The words of a row as the swap sees them (its printed form split on `|`). */
  function RowWords(d: Dict, row: seq<int>): (ws: seq<seq<int>>)
    ensures |ws| >= 1
  {
    Split(Visible(d, row), d.sep)
  }

  /** The bounds `torch.randperm` puts on the swap draws of a row of `n` words. */
  predicate SwapDrawOk(n: nat, dr: SwapDraw)
  {
    n > 3 ==>
      && dr.pick < n
      && dr.offset < Max(n - SwapLen(n, dr.pick) - 1, 1)
      && |dr.keys| == SwapLen(n, dr.pick)
  }

  /**
   * The row's words with the drawn span reordered by `partial_shuffle`: outside
   * the span every word stays where it was, the last word (which carries the
   * row's trailing padding) never moves, and the span keeps its words.
   */
  function ShuffledWords(words: seq<seq<int>>, dr: SwapDraw): (ws: seq<seq<int>>)
    requires |words| > 3
    requires SwapDrawOk(|words|, dr)
    ensures var n := |words|;
            var k := SwapLen(n, dr.pick);
            var s := SwapStart(n, k, dr.offset);
            && |ws| == n
            && ws[n - 1] == words[n - 1]
            && ws[..s] == words[..s]
            && ws[s + k..] == words[s + k..]
            && multiset(ws[s..s + k]) == multiset(words[s..s + k])
            && multiset(ws) == multiset(words)
  {
    var n := |words|;
    var k := SwapLen(n, dr.pick);
    var s := SwapStart(n, k, dr.offset);
    ShuffleKeepsLast(words, s, s + k, dr.keys);
    PartialShufflePermutes(words, s, s + k, dr.keys);
    PartialShuffle(words, s, s + k, dr.keys)
  }

  /** A span that ends before the last item leaves the last item in place. */
  lemma ShuffleKeepsLast<W>(lst: seq<W>, imin: nat, imax: nat, keys: seq<real>)
    requires imin <= imax < |lst|
    requires |keys| == imax - imin
    ensures PartialShuffle(lst, imin, imax, keys)[|lst| - 1] == lst[|lst| - 1]
  {
    var r := PartialShuffle(lst, imin, imax, keys);
    assert r[|lst| - 1] == r[imax..][|lst| - 1 - imax];
  }

  /** The line a swap writes: the re-joined words, span reordered. */
  function SwappedLine(d: Dict, row: seq<int>, dr: SwapDraw): (line: seq<int>)
    requires |RowWords(d, row)| > 3
    requires SwapDrawOk(|RowWords(d, row)|, dr)
    ensures multiset(line) == multiset(Visible(d, row))
    ensures |line| == |Visible(d, row)| <= |row|
  {
    var shuffled := ShuffledWords(RowWords(d, row), dr);
    JoinPermutation(RowWords(d, row), shuffled, d.sep);
    JoinSplit(Visible(d, row), d.sep);
    Join(shuffled, d.sep)
  }

  /**
   * One row of `txt_rand_swap`: a row of more than three words gets its swapped
   * line written over a row of fill values; any other row is copied.
   */
  function SwapRow(d: Dict, row: seq<int>, dr: SwapDraw): (r: seq<int>)
    requires SwapDrawOk(|RowWords(d, row)|, dr)
    ensures |r| == |row|
    ensures |RowWords(d, row)| <= 3 ==> r == row
    ensures |RowWords(d, row)| > 3 ==>
      && multiset(r[..|Visible(d, row)|]) == multiset(Visible(d, row))
      && forall j :: |Visible(d, row)| <= j < |row| ==> r[j] == Fill
  {
    if |RowWords(d, row)| > 3 then
      var line := SwappedLine(d, row, dr);
      assert (line + Repeat(Fill, |row| - |line|))[..|line|] == line;
      line + Repeat(Fill, |row| - |line|)
    else row
  }

  /** Splitting the swapped line on the boundary token gives the shuffled words back. */
  lemma SwappedLineSplits(d: Dict, row: seq<int>, dr: SwapDraw)
    requires |RowWords(d, row)| > 3
    requires SwapDrawOk(|RowWords(d, row)|, dr)
    ensures Split(SwappedLine(d, row, dr), d.sep) == ShuffledWords(RowWords(d, row), dr)
  {
    var shuffled := ShuffledWords(RowWords(d, row), dr);
    PermutationKeepsSepFree(RowWords(d, row), shuffled, d.sep);
    SplitJoin(shuffled, d.sep);
  }

  /** A reordering of boundary-free words is boundary-free. */
  lemma PermutationKeepsSepFree(words: seq<seq<int>>, shuffled: seq<seq<int>>, sep: int)
    requires multiset(shuffled) == multiset(words)
    requires forall w :: w in words ==> sep !in w
    ensures forall w :: w in shuffled ==> sep !in w
  {
    forall w | w in shuffled ensures sep !in w {
      assert w in multiset(shuffled);
      assert w in words;
    }
  }

  // ---------------------------------------------------------------------------
  // Random span deletion (one row)

  /** A length draw and a start draw of the deletion or the insertion. */
  datatype SpanDraw = SpanDraw(pick: nat, offset: nat)

  /**
   * Deletion draws: `k = randperm(line_len // 2)[0] + 1`, and, when
   * `line_len > k`, `start = randperm(line_len - k)[0]`.
   */
  predicate DeletionDrawOk(lineLen: nat, dr: SpanDraw)
  {
    lineLen / 2 > 0 ==>
      && dr.pick < lineLen / 2
      && (lineLen > dr.pick + 1 ==> dr.offset < lineLen - (dr.pick + 1))
  }

  /**
   * Remove `k` tokens at `s`: `out[:s] = line[:s]`, `out[s:-k] = line[s+k:]`,
   * and the last `k` cells keep the fill value; a row not longer than `k`
   * is copied.
   */
  function DeleteSpan(row: seq<int>, lineLen: nat, k: nat, s: nat): (r: seq<int>)
    requires lineLen <= |row|
    requires 1 <= k
    requires lineLen > k ==> s < lineLen - k
    ensures |r| == |row|
    ensures lineLen > k ==> r[..lineLen - k] == row[..s] + row[s + k..lineLen]
    ensures lineLen > k ==> r[lineLen - k..|row| - k] == row[lineLen..]
    ensures lineLen > k ==> forall j :: |row| - k <= j < |row| ==> r[j] == Fill
    ensures lineLen <= k ==> r == row
  {
    if lineLen > k then
      var r := row[..s] + row[s + k..] + Repeat(Fill, k);
      assert r[..lineLen - k] == row[..s] + row[s + k..lineLen];
      assert r[lineLen - k..|row| - k] == row[lineLen..];
      r
    else row
  }

  /**
   * One row of `txt_rand_del` as the code is written: the length draw indexes
   * `torch.randperm(line_len // 2)`, which is empty when `line_len < 2`.
   */
  function DeleteRowAsWritten(row: seq<int>, lineLen: nat, dr: SpanDraw): (r: Result<seq<int>>)
    requires lineLen <= |row|
    requires DeletionDrawOk(lineLen, dr)
    ensures r.Failure? <==> lineLen < 2
    ensures r.Success? ==> lineLen > dr.pick + 1
  {
    if lineLen / 2 == 0 then Failure(EmptyPermutation)
    else Success(DeleteSpan(row, lineLen, dr.pick + 1, dr.offset))
  }

  /** A one-token row makes the deletion as written raise. */
  lemma DeletionAsWrittenRaisesOnOneTokenRow()
    ensures DeleteRowAsWritten([7, Fill], 1, SpanDraw(0, 0)) == Failure(EmptyPermutation)
  {
  }

  /**
   * One row of `txt_rand_del`, with the intended fallback: a row too short to
   * draw a deletion length from is copied unchanged, as the `else` branch of
   * the code does for rows not longer than the drawn length.
   */
  function DeleteRow(row: seq<int>, lineLen: nat, dr: SpanDraw): (r: seq<int>)
    requires lineLen <= |row|
    requires DeletionDrawOk(lineLen, dr)
    ensures |r| == |row|
    ensures lineLen < 2 ==> r == row
    ensures lineLen >= 2 ==>
      && 1 <= dr.pick + 1 <= lineLen / 2
      && r[..lineLen - (dr.pick + 1)] == row[..dr.offset] + row[dr.offset + dr.pick + 1..lineLen]
      && r[lineLen - (dr.pick + 1)..|row| - (dr.pick + 1)] == row[lineLen..]
      && forall j :: |row| - (dr.pick + 1) <= j < |row| ==> r[j] == Fill
  {
    if lineLen / 2 == 0 then row
    else DeleteSpan(row, lineLen, dr.pick + 1, dr.offset)
  }

  /** Wherever the code as written returns a row, the corrected deletion returns the same row. */
  lemma DeleteRowAgreesWithCode(row: seq<int>, lineLen: nat, dr: SpanDraw)
    requires lineLen <= |row|
    requires DeletionDrawOk(lineLen, dr)
    ensures DeleteRowAsWritten(row, lineLen, dr).Success? ==>
              DeleteRowAsWritten(row, lineLen, dr).value == DeleteRow(row, lineLen, dr)
  {
  }

  // ---------------------------------------------------------------------------
  // Random repetition insertion (one row)

  /** `max_len_ins`: the insertion buffer is this much wider than the batch. */
  const MaxInsertLen: nat := 4

  /**
   * Insertion draws: `k = randperm(max_len_ins)[0] + 1`, and, when
   * `line_len > k`, `start = randperm(line_len - k)[0]`.
   */
  predicate InsertionDrawOk(lineLen: nat, dr: SpanDraw)
  {
    && dr.pick < MaxInsertLen
    && (lineLen > dr.pick + 1 ==> dr.offset < lineLen - (dr.pick + 1))
  }

  /**
   * One row of `txt_rand_ins`: `k` extra copies of `line[s]` go in front of
   * `line[s:]`; a row not longer than `k` is copied into the first `T` cells.
   * The remaining cells keep the fill value.
   */
  function InsertRow(row: seq<int>, lineLen: nat, dr: SpanDraw): (r: seq<int>)
    requires lineLen <= |row|
    requires InsertionDrawOk(lineLen, dr)
    ensures |r| == |row| + MaxInsertLen
    ensures 1 <= dr.pick + 1 <= MaxInsertLen
    ensures lineLen <= dr.pick + 1 ==>
      r[..|row|] == row && forall j :: |row| <= j < |r| ==> r[j] == Fill
  {
    var k := dr.pick + 1;
    if lineLen > k then
      var s := dr.offset;
      row[..s] + Repeat(row[s], k) + row[s..] + Repeat(Fill, MaxInsertLen - k)
    else
      var r := row + Repeat(Fill, MaxInsertLen);
      assert r[..|row|] == row;
      r
  }

  /**
   * When the row is long enough, the token at the drawn start appears `k + 1`
   * times in a row, cutting the inserted copies out gives the row back, and
   * the cells after the shifted row keep the fill value.
   */
  lemma {:induction false} InsertRowRepeats(row: seq<int>, lineLen: nat, dr: SpanDraw)
    requires lineLen <= |row|
    requires InsertionDrawOk(lineLen, dr)
    requires lineLen > dr.pick + 1
    ensures var r := InsertRow(row, lineLen, dr);
            var k := dr.pick + 1;
            var s := dr.offset;
            && (forall j :: s <= j <= s + k ==> r[j] == row[s])
            && r[..s] + r[s + k..|row| + k] == row
            && (forall j :: |row| + k <= j < |r| ==> r[j] == Fill)
  {
    var r := InsertRow(row, lineLen, dr);
    var k := dr.pick + 1;
    var s := dr.offset;
    var a, b, c, e := row[..s], Repeat(row[s], k), row[s..], Repeat(Fill, MaxInsertLen - k);
    assert r == a + b + c + e;
    assert r[..s] == a;
    assert r[s + k..|row| + k] == c;
    assert row == a + c;
    forall j | s <= j <= s + k ensures r[j] == row[s] {
      if j < s + k {
        assert r[j] == b[j - s];
      } else {
        assert r[j] == c[0];
      }
    }
    forall j | |row| + k <= j < |r| ensures r[j] == Fill {
      assert r[j] == e[j - |row| - k];
    }
  }

  /** Deleting the inserted span again restores the row (followed by fill values). */
  lemma DeletionUndoesInsertion(row: seq<int>, lineLen: nat, dr: SpanDraw)
    requires lineLen <= |row|
    requires InsertionDrawOk(lineLen, dr)
    requires lineLen > dr.pick + 1
    ensures DeleteSpan(InsertRow(row, lineLen, dr), lineLen + dr.pick + 1, dr.pick + 1, dr.offset)
            == row + Repeat(Fill, MaxInsertLen)
  {
    var r := InsertRow(row, lineLen, dr);
    var k := dr.pick + 1;
    var s := dr.offset;
    InsertRowRepeats(row, lineLen, dr);
    var kept, tail := r[s + k..|row| + k], r[|row| + k..];
    assert tail == Repeat(Fill, MaxInsertLen - k);
    assert r[s + k..] == kept + tail;
    DeleteSpanUnfold(r, lineLen + k, k, s);
    RepeatConcat(Fill, MaxInsertLen - k, k);
    ConcatRegroup(r[..s], kept, tail, Repeat(Fill, k));
  }

  /** A deletion that applies cuts the span out and pads with fill values. */
  lemma DeleteSpanUnfold(row: seq<int>, lineLen: nat, k: nat, s: nat)
    requires lineLen <= |row| && 1 <= k < lineLen && s < lineLen - k
    ensures DeleteSpan(row, lineLen, k, s) == row[..s] + row[s + k..] + Repeat(Fill, k)
  {
  }

  lemma RepeatConcat<T>(x: T, a: nat, b: nat)
    ensures Repeat(x, a) + Repeat(x, b) == Repeat(x, a + b)
  {
    var l, r := Repeat(x, a) + Repeat(x, b), Repeat(x, a + b);
    assert |l| == |r|;
    forall i | 0 <= i < |l| ensures l[i] == r[i] {
      if i < a {
        assert l[i] == Repeat(x, a)[i];
      } else {
        assert l[i] == Repeat(x, b)[i - a];
      }
    }
  }

  lemma ConcatRegroup<T>(a: seq<T>, b: seq<T>, c: seq<T>, e: seq<T>)
    ensures a + (b + c) + e == (a + b) + (c + e)
  {
  }

  // ---------------------------------------------------------------------------
  // The batch buffers

  /** All draws of one augmentation round for one row. */
  datatype RowDraws = RowDraws(swap: SwapDraw, del: SpanDraw, ins: SpanDraw)

  /** The target batch and its lengths as `txt_augment` receives them. */
  ghost predicate BatchOk(txt: array2<int>, lengths: seq<nat>)
    reads txt
  {
    |lengths| == txt.Length0 && forall i :: 0 <= i < |lengths| ==> lengths[i] <= txt.Length1
  }

  /** Draws `torch.randperm` can produce for one row. */
  predicate RowDrawsOk(d: Dict, row: seq<int>, lineLen: nat, dr: RowDraws)
  {
    && lineLen <= |row|
    && SwapDrawOk(|RowWords(d, row)|, dr.swap)
    && DeletionDrawOk(lineLen, dr.del)
    && InsertionDrawOk(lineLen, dr.ins)
  }

  /** Draws that `torch.randperm` can produce for every row of the batch. */
  ghost predicate RoundDrawsOk(d: Dict, txt: array2<int>, lengths: seq<nat>, draws: seq<RowDraws>)
    reads txt
  {
    && BatchOk(txt, lengths)
    && |draws| == txt.Length0
    && forall i :: 0 <= i < |draws| ==> RowDrawsOk(d, Row(txt, i), lengths[i], draws[i])
  }

  ghost predicate IsSwapBuffer(out: array2<int>, d: Dict, txt: array2<int>, lengths: seq<nat>, draws: seq<RowDraws>)
    requires RoundDrawsOk(d, txt, lengths, draws)
    reads out, txt
  {
    && out.Length0 == txt.Length0 && out.Length1 == txt.Length1
    && forall i, j :: 0 <= i < out.Length0 && 0 <= j < out.Length1 ==>
         out[i, j] == SwapRow(d, Row(txt, i), draws[i].swap)[j]
  }

  ghost predicate IsDeletionBuffer(out: array2<int>, d: Dict, txt: array2<int>, lengths: seq<nat>, draws: seq<RowDraws>)
    requires RoundDrawsOk(d, txt, lengths, draws)
    reads out, txt
  {
    && out.Length0 == txt.Length0 && out.Length1 == txt.Length1
    && forall i, j :: 0 <= i < out.Length0 && 0 <= j < out.Length1 ==>
         out[i, j] == DeleteRow(Row(txt, i), lengths[i], draws[i].del)[j]
  }

  ghost predicate IsInsertionBuffer(out: array2<int>, d: Dict, txt: array2<int>, lengths: seq<nat>, draws: seq<RowDraws>)
    requires RoundDrawsOk(d, txt, lengths, draws)
    reads out, txt
  {
    && out.Length0 == txt.Length0 && out.Length1 == txt.Length1 + MaxInsertLen
    && forall i, j :: 0 <= i < out.Length0 && 0 <= j < out.Length1 ==>
         out[i, j] == InsertRow(Row(txt, i), lengths[i], draws[i].ins)[j]
  }

  /** `out[i, at:at+len(src)] = src`: a slice assignment into one row. */
  method CopyInto(out: array2<int>, i: nat, at: nat, src: seq<int>)
    requires i < out.Length0 && at + |src| <= out.Length1
    modifies out
    ensures forall r, c :: 0 <= r < out.Length0 && 0 <= c < out.Length1 ==>
              out[r, c] == if r == i && at <= c < at + |src| then src[c - at] else old(out[r, c])
  {
    forall c | at <= c < at + |src| {
      out[i, c] := src[c - at];
    }
  }

  /** The cells of `DeleteRow`, one by one. */
  lemma DeleteRowAt(row: seq<int>, lineLen: nat, dr: SpanDraw, j: nat)
    requires lineLen <= |row| && DeletionDrawOk(lineLen, dr) && j < |row|
    ensures var k := dr.pick + 1;
            DeleteRow(row, lineLen, dr)[j] ==
              if lineLen < 2 then row[j]
              else if j < dr.offset then row[j]
              else if j < |row| - k then row[j + k]
              else Fill
  {
  }

  /** The cells of `InsertRow`, one by one. */
  lemma InsertRowAt(row: seq<int>, lineLen: nat, dr: SpanDraw, j: nat)
    requires lineLen <= |row| && InsertionDrawOk(lineLen, dr) && j < |row| + MaxInsertLen
    ensures var k := dr.pick + 1;
            var s := dr.offset;
            InsertRow(row, lineLen, dr)[j] ==
              if lineLen <= k then (if j < |row| then row[j] else Fill)
              else if j < s then row[j]
              else if j < s + k then row[s]
              else if j < |row| + k then row[j - k]
              else Fill
  {
    var k := dr.pick + 1;
    var s := dr.offset;
    if lineLen > k {
      var a, b, c, e := row[..s], Repeat(row[s], k), row[s..], Repeat(Fill, MaxInsertLen - k);
      assert InsertRow(row, lineLen, dr) == a + b + c + e;
    }
  }

  /** The cells of `SwapRow`, one by one. */
  lemma SwapRowAt(d: Dict, row: seq<int>, dr: SwapDraw, j: nat)
    requires SwapDrawOk(|RowWords(d, row)|, dr) && j < |row|
    ensures |RowWords(d, row)| > 3 ==>
              SwapRow(d, row, dr)[j] ==
                if j < |SwappedLine(d, row, dr)| then SwappedLine(d, row, dr)[j] else Fill
  {
  }

  /** Fill row `idx` of a fresh swap buffer. */
  method FillSwapRow(out: array2<int>, d: Dict, txt: array2<int>, idx: nat, dr: SwapDraw)
    requires out != txt
    requires idx < txt.Length0 == out.Length0 && out.Length1 == txt.Length1
    requires SwapDrawOk(|RowWords(d, Row(txt, idx))|, dr)
    requires forall j :: 0 <= j < out.Length1 ==> out[idx, j] == Fill
    modifies out
    ensures forall j :: 0 <= j < out.Length1 ==> out[idx, j] == SwapRow(d, Row(txt, idx), dr)[j]
    ensures forall r, c :: 0 <= r < out.Length0 && r != idx && 0 <= c < out.Length1 ==> out[r, c] == old(out[r, c])
  {
    var row := Row(txt, idx);
    var swap := |RowWords(d, row)| > 3;
    var line := if swap then SwappedLine(d, row, dr) else row;
    CopyInto(out, idx, 0, line);
    forall j | 0 <= j < out.Length1 ensures out[idx, j] == SwapRow(d, row, dr)[j] {
      SwapRowAt(d, row, dr, j);
    }
  }

  /** Fill row `idx` of a fresh deletion buffer. */
  method FillDeletionRow(out: array2<int>, txt: array2<int>, idx: nat, lineLen: nat, dr: SpanDraw)
    requires out != txt
    requires idx < txt.Length0 == out.Length0 && out.Length1 == txt.Length1
    requires lineLen <= txt.Length1 && DeletionDrawOk(lineLen, dr)
    requires forall j :: 0 <= j < out.Length1 ==> out[idx, j] == Fill
    modifies out
    ensures forall j :: 0 <= j < out.Length1 ==> out[idx, j] == DeleteRow(Row(txt, idx), lineLen, dr)[j]
    ensures forall r, c :: 0 <= r < out.Length0 && r != idx && 0 <= c < out.Length1 ==> out[r, c] == old(out[r, c])
  {
    var line := Row(txt, idx);
    var k := dr.pick + 1;
    if lineLen / 2 > 0 && lineLen > k {
      var s := dr.offset;
      CopyInto(out, idx, 0, line[..s]);
      CopyInto(out, idx, s, line[s + k..]);
    } else {
      CopyInto(out, idx, 0, line);
    }
    forall j | 0 <= j < out.Length1 ensures out[idx, j] == DeleteRow(line, lineLen, dr)[j] {
      DeleteRowAt(line, lineLen, dr, j);
    }
  }

  /** Fill row `idx` of a fresh insertion buffer. */
  method FillInsertionRow(out: array2<int>, txt: array2<int>, idx: nat, lineLen: nat, dr: SpanDraw)
    requires out != txt
    requires idx < txt.Length0 == out.Length0 && out.Length1 == txt.Length1 + MaxInsertLen
    requires lineLen <= txt.Length1 && InsertionDrawOk(lineLen, dr)
    requires forall j :: 0 <= j < out.Length1 ==> out[idx, j] == Fill
    modifies out
    ensures forall j :: 0 <= j < out.Length1 ==> out[idx, j] == InsertRow(Row(txt, idx), lineLen, dr)[j]
    ensures forall r, c :: 0 <= r < out.Length0 && r != idx && 0 <= c < out.Length1 ==> out[r, c] == old(out[r, c])
  {
    var line := Row(txt, idx);
    var k := dr.pick + 1;
    if lineLen > k {
      var s := dr.offset;
      CopyInto(out, idx, 0, line[..s]);
      CopyInto(out, idx, s, Repeat(line[s], k));
      CopyInto(out, idx, s + k, line[s..]);
    } else {
      CopyInto(out, idx, 0, line);
    }
    forall j | 0 <= j < out.Length1 ensures out[idx, j] == InsertRow(line, lineLen, dr)[j] {
      InsertRowAt(line, lineLen, dr, j);
    }
  }

  /** `txt_rand_swap`: a `torch.ones` buffer filled row by row. */
  method RandomSwap(d: Dict, txt: array2<int>, lengths: seq<nat>, draws: seq<RowDraws>) returns (out: array2<int>)
    requires RoundDrawsOk(d, txt, lengths, draws)
    ensures fresh(out)
    ensures IsSwapBuffer(out, d, txt, lengths, draws)
  {
    out := new int[txt.Length0, txt.Length1]((_, _) => Fill);
    for idx := 0 to txt.Length0
      invariant forall i, j :: 0 <= i < idx && 0 <= j < txt.Length1 ==>
                  out[i, j] == SwapRow(d, Row(txt, i), draws[i].swap)[j]
      invariant forall i, j :: idx <= i < txt.Length0 && 0 <= j < txt.Length1 ==> out[i, j] == Fill
    {
      assert RowDrawsOk(d, Row(txt, idx), lengths[idx], draws[idx]);
      FillSwapRow(out, d, txt, idx, draws[idx].swap);
    }
  }

  /** `txt_rand_del`: a `torch.ones` buffer filled row by row. */
  method RandomDeletion(d: Dict, txt: array2<int>, lengths: seq<nat>, draws: seq<RowDraws>) returns (out: array2<int>)
    requires RoundDrawsOk(d, txt, lengths, draws)
    ensures fresh(out)
    ensures IsDeletionBuffer(out, d, txt, lengths, draws)
  {
    out := new int[txt.Length0, txt.Length1]((_, _) => Fill);
    for idx := 0 to txt.Length0
      invariant forall i, j :: 0 <= i < idx && 0 <= j < txt.Length1 ==>
                  out[i, j] == DeleteRow(Row(txt, i), lengths[i], draws[i].del)[j]
      invariant forall i, j :: idx <= i < txt.Length0 && 0 <= j < txt.Length1 ==> out[i, j] == Fill
    {
      assert RowDrawsOk(d, Row(txt, idx), lengths[idx], draws[idx]);
      FillDeletionRow(out, txt, idx, lengths[idx], draws[idx].del);
    }
  }

  /** `txt_rand_ins`: a `torch.ones` buffer `max_len_ins` cells wider, filled row by row. */
  method RandomInsertion(d: Dict, txt: array2<int>, lengths: seq<nat>, draws: seq<RowDraws>) returns (out: array2<int>)
    requires RoundDrawsOk(d, txt, lengths, draws)
    ensures fresh(out)
    ensures IsInsertionBuffer(out, d, txt, lengths, draws)
  {
    var width := txt.Length1 + MaxInsertLen;
    out := new int[txt.Length0, width]((_, _) => Fill);
    for idx := 0 to txt.Length0
      invariant forall i, j :: 0 <= i < idx && 0 <= j < width ==>
                  out[i, j] == InsertRow(Row(txt, i), lengths[i], draws[i].ins)[j]
      invariant forall i, j :: idx <= i < txt.Length0 && 0 <= j < width ==> out[i, j] == Fill
    {
      assert RowDrawsOk(d, Row(txt, idx), lengths[idx], draws[idx]);
      FillInsertionRow(out, txt, idx, lengths[idx], draws[idx].ins);
    }
  }

  /** The three buffers one augmentation round appends. */
  ghost predicate IsRound(swapped: array2<int>, deleted: array2<int>, inserted: array2<int>,
                          d: Dict, txt: array2<int>, lengths: seq<nat>, draws: seq<RowDraws>)
    requires RoundDrawsOk(d, txt, lengths, draws)
    reads swapped, deleted, inserted, txt
  {
    && IsSwapBuffer(swapped, d, txt, lengths, draws)
    && IsDeletionBuffer(deleted, d, txt, lengths, draws)
    && IsInsertionBuffer(inserted, d, txt, lengths, draws)
  }

  /**
   * `txt_augment`: the ground truth itself first (the very same tensor), then,
   * per round, the swap, deletion and insertion buffers.
   */
  method TxtAugment(d: Dict, txt: array2<int>, lengths: seq<nat>, numAug: nat, draws: seq<seq<RowDraws>>)
    returns (auged: seq<array2<int>>)
    requires |draws| == numAug
    requires forall r :: 0 <= r < numAug ==> RoundDrawsOk(d, txt, lengths, draws[r])
    ensures |auged| == 1 + 3 * numAug
    ensures auged[0] == txt
    ensures forall k :: 1 <= k < |auged| ==> fresh(auged[k])
    ensures forall r :: 0 <= r < numAug ==>
              IsRound(auged[1 + 3 * r], auged[2 + 3 * r], auged[3 + 3 * r], d, txt, lengths, draws[r])
  {
    auged := [txt];
    for round := 0 to numAug
      invariant forall k :: 1 <= k < |auged| ==> fresh(auged[k])
      invariant RoundsBuilt(auged, round, d, txt, lengths, draws)
    {
      var swapped, deleted, inserted := AugmentRound(d, txt, lengths, draws[round]);
      RoundsBuiltSnoc(auged, round, d, txt, lengths, draws, swapped, deleted, inserted);
      auged := auged + [swapped, deleted, inserted];
    }
  }

  /** `auged` holds the ground truth and the buffers of the first `n` rounds. */
  ghost predicate RoundsBuilt(auged: seq<array2<int>>, n: nat, d: Dict, txt: array2<int>, lengths: seq<nat>,
                              draws: seq<seq<RowDraws>>)
    reads txt, set k | 0 <= k < |auged| :: auged[k]
  {
    && |auged| == 1 + 3 * n && n <= |draws|
    && auged[0] == txt
    && forall r :: 0 <= r < n ==>
         && RoundDrawsOk(d, txt, lengths, draws[r])
         && IsRound(auged[1 + 3 * r], auged[2 + 3 * r], auged[3 + 3 * r], d, txt, lengths, draws[r])
  }

  /** Appending the buffers of round `n` extends the rounds built. */
  lemma RoundsBuiltSnoc(auged: seq<array2<int>>, n: nat, d: Dict, txt: array2<int>, lengths: seq<nat>,
                        draws: seq<seq<RowDraws>>, swapped: array2<int>, deleted: array2<int>, inserted: array2<int>)
    requires RoundsBuilt(auged, n, d, txt, lengths, draws)
    requires n < |draws| && RoundDrawsOk(d, txt, lengths, draws[n])
    requires IsRound(swapped, deleted, inserted, d, txt, lengths, draws[n])
    ensures RoundsBuilt(auged + [swapped, deleted, inserted], n + 1, d, txt, lengths, draws)
  {
    var next := auged + [swapped, deleted, inserted];
    assert next[1 + 3 * n] == swapped && next[2 + 3 * n] == deleted && next[3 + 3 * n] == inserted;
    forall r | 0 <= r < n
      ensures next[1 + 3 * r] == auged[1 + 3 * r]
      ensures next[2 + 3 * r] == auged[2 + 3 * r]
      ensures next[3 + 3 * r] == auged[3 + 3 * r]
    {
    }
  }

  /** One augmentation round: a swap, a deletion and an insertion buffer, all new. */
  method AugmentRound(d: Dict, txt: array2<int>, lengths: seq<nat>, draws: seq<RowDraws>)
    returns (swapped: array2<int>, deleted: array2<int>, inserted: array2<int>)
    requires RoundDrawsOk(d, txt, lengths, draws)
    ensures fresh(swapped) && fresh(deleted) && fresh(inserted)
    ensures IsRound(swapped, deleted, inserted, d, txt, lengths, draws)
  {
    swapped := RandomSwap(d, txt, lengths, draws);
    deleted := RandomDeletion(d, txt, lengths, draws);
    inserted := RandomInsertion(d, txt, lengths, draws);
  }
}

=== FILE: common.dfy ===
/**
 * Shared vocabulary of the CTC sequence-discriminative KD criterion model:
 * failure-compatible results, the target dictionary's special indices,
 * and the two-dimensional view of a token tensor.
 */
module Common {

  datatype Option<+T> = None | Some(value: T)

  /** The ways a step of the criterion raises instead of returning. */
  datatype Error =
    | EmptyPermutation   // `torch.randperm(0)[0]`: indexing an empty tensor
    | EmptyList          // `max()` of an empty sequence
    | DivisionByZero     // Python `x / 0`

  datatype Result<+T> = Success(value: T) | Failure(error: Error)

  /** The value `torch.ones` writes into every freshly allocated augmentation buffer. */
  const Fill: int := 1

  /**
   * The parts of the target dictionary the criterion consults: the special
   * indices and the printable symbol of every index. `sep` is the index of the
   * word boundary symbol `|` of the letter dictionary.
   */
  datatype Dict = Dict(pad: int, eos: int, bos: int, blank: int, sep: int, symbols: seq<string>)

  /** `Dictionary.string` never prints the eos and bos indices. */
  predicate Hidden(d: Dict, tok: int)
  {
    tok == d.eos || tok == d.bos
  }

  /** The tokens of a row that `Dictionary.string` renders, in order. */
  function Visible(d: Dict, row: seq<int>): (r: seq<int>)
    ensures |r| <= |row|
    ensures forall t :: t in r ==> t in row && !Hidden(d, t)
    ensures (forall t :: t in row ==> !Hidden(d, t)) ==> r == row
  {
    if row == [] then []
    else if Hidden(d, row[0]) then Visible(d, row[1..])
    else [row[0]] + Visible(d, row[1..])
  }

  /** Every token `Dictionary.string` prints is kept, exactly as often as it occurs. */
  lemma {:induction false} VisibleCounts(d: Dict, row: seq<int>)
    ensures forall t :: !Hidden(d, t) ==> multiset(Visible(d, row))[t] == multiset(row)[t]
  {
    if row != [] {
      VisibleCounts(d, row[1..]);
      assert row == [row[0]] + row[1..];
    }
  }

  /** Printed tokens keep their order: `Visible` works piece by piece. */
  lemma {:induction false} VisibleAppend(d: Dict, a: seq<int>, b: seq<int>)
    ensures Visible(d, a + b) == Visible(d, a) + Visible(d, b)
  {
    if a == [] {
      assert a + b == b;
    } else {
      var ab := a + b;
      assert ab[0] == a[0] && ab[1..] == a[1..] + b;
      VisibleAppend(d, a[1..], b);
      var rest := Visible(d, a[1..]);
      if !Hidden(d, a[0]) {
        assert [a[0]] + (rest + Visible(d, b)) == ([a[0]] + rest) + Visible(d, b);
      }
    }
  }

  /** `n` copies of `x`. */
  function Repeat<T>(x: T, n: nat): (r: seq<T>)
    ensures |r| == n
    ensures forall i :: 0 <= i < n ==> r[i] == x
  {
    if n == 0 then [] else [x] + Repeat(x, n - 1)
  }

  /** Row `i` of a two-dimensional tensor, as a sequence. */
  function Row(a: array2<int>, i: nat): (r: seq<int>)
    requires i < a.Length0
    reads a
    ensures |r| == a.Length1
    ensures forall j :: 0 <= j < a.Length1 ==> r[j] == a[i, j]
  {
    seq(a.Length1, j requires 0 <= j < a.Length1 reads a => a[i, j])
  }

  function Min(a: int, b: int): int { if a <= b then a else b }

  function Max(a: int, b: int): int { if a >= b then a else b }

  /** Sum of a sequence of integers. */
  function Sum(xs: seq<int>): int
  {
    if xs == [] then 0 else xs[0] + Sum(xs[1..])
  }

  lemma {:induction false} SumAppend(a: seq<int>, b: seq<int>)
    ensures Sum(a + b) == Sum(a) + Sum(b)
  {
    if a == [] {
      assert a + b == b;
    } else {
      assert (a + b)[1..] == a[1..] + b;
      SumAppend(a[1..], b);
    }
  }
}

=== FILE: edit_distance.dfy ===
/**
 * The edit-distance side of the sequence-discriminative loss: the Levenshtein
 * distance the `editdistance` package computes, the printed strings it is
 * applied to, the (batch, candidate) distance matrix filled cell by cell, and
 * the legacy linear soft-label rescaling of one matrix row.
 */
module EditDistance {
  import opened Common

  // ---------------------------------------------------------------------------
  // Levenshtein distance

  function Min3(a: nat, b: nat, c: nat): nat
  {
    if a <= b && a <= c then a else if b <= c then b else c
  }

  /**
   * The least number of single-element insertions, deletions and
   * substitutions that turn `a` into `b` (`editdistance.eval`).
   */
  function Lev<T(==)>(a: seq<T>, b: seq<T>): nat
    decreases |a| + |b|
  {
    if |a| == 0 then |b|
    else if |b| == 0 then |a|
    else Min3(Lev(a[1..], b) + 1,
              Lev(a, b[1..]) + 1,
              Lev(a[1..], b[1..]) + (if a[0] == b[0] then 0 else 1))
  }

  /** A sequence is at distance 0 from itself. */
  lemma {:induction false} LevSelf<T>(a: seq<T>)
    ensures Lev(a, a) == 0
  {
    if |a| > 0 {
      LevSelf(a[1..]);
    }
  }

  /** Distance 0 only between equal sequences. */
  lemma LevZeroImpliesEqual<T>(a: seq<T>, b: seq<T>)
    ensures Lev(a, b) == 0 ==> a == b
  {
    if Lev(a, b) == 0 {
      LevZero(a, b);
    }
  }

  lemma {:induction false} LevZero<T>(a: seq<T>, b: seq<T>)
    requires Lev(a, b) == 0
    ensures a == b
    decreases |a| + |b|
  {
    if |a| > 0 && |b| > 0 {
      LevZero(a[1..], b[1..]);
      assert a == [a[0]] + a[1..] && b == [b[0]] + b[1..];
    }
  }

  /** The distance is symmetric. */
  lemma {:induction false} LevSymmetric<T>(a: seq<T>, b: seq<T>)
    ensures Lev(a, b) == Lev(b, a)
    decreases |a| + |b|
  {
    if |a| > 0 && |b| > 0 {
      LevSymmetric(a[1..], b);
      LevSymmetric(a, b[1..]);
      LevSymmetric(a[1..], b[1..]);
    }
  }

  /** The distance lies between the difference and the larger of the two lengths. */
  lemma {:induction false} LevBounds<T>(a: seq<T>, b: seq<T>)
    ensures Lev(a, b) <= Max(|a|, |b|)
    ensures Lev(a, b) >= |a| - |b| && Lev(a, b) >= |b| - |a|
    decreases |a| + |b|
  {
    if |a| > 0 && |b| > 0 {
      LevBounds(a[1..], b);
      LevBounds(a, b[1..]);
      LevBounds(a[1..], b[1..]);
    }
  }

  // ---------------------------------------------------------------------------
  // The strings the distance is taken between

  /** `Dictionary`'s `unk_word`, printed for an index outside the symbol table. */
  const UnkWord: string := "<unk>"

  /** The printed symbol of one index. */
  function Symbol(d: Dict, tok: int): string
  {
    if 0 <= tok < |d.symbols| then d.symbols[tok] else UnkWord
  }

  /** `' '.join(strs)`. */
  function JoinSpace(strs: seq<string>): string
  {
    if strs == [] then ""
    else if |strs| == 1 then strs[0]
    else strs[0] + " " + JoinSpace(strs[1..])
  }

  function Symbols(d: Dict, toks: seq<int>): (r: seq<string>)
    ensures |r| == |toks|
  {
    if toks == [] then [] else [Symbol(d, toks[0])] + Symbols(d, toks[1..])
  }

  /** `Dictionary.string(row)`: visible symbols separated by one space. */
  function DictString(d: Dict, row: seq<int>): string
  {
    JoinSpace(Symbols(d, Visible(d, row)))
  }

  /** Python's `s.replace(pat, rep)`: left to right, non-overlapping. */
  function Replace(s: string, pat: string, rep: string): string
    requires |pat| > 0
  {
    if |s| < |pat| then s
    else if s[..|pat|] == pat then rep + Replace(s[|pat|..], pat, rep)
    else [s[0]] + Replace(s[1..], pat, rep)
  }

  /** Replacing by the empty string never lengthens a string. */
  lemma {:induction false} ReplaceByEmptyShortens(s: string, pat: string)
    requires |pat| > 0
    ensures |Replace(s, pat, "")| <= |s|
  {
    if |s| >= |pat| {
      if s[..|pat|] == pat {
        ReplaceByEmptyShortens(s[|pat|..], pat);
      } else {
        ReplaceByEmptyShortens(s[1..], pat);
      }
    }
  }

  /** `pat` starts at position `k` of `s`. */
  predicate OccursAt(s: string, pat: string, k: nat)
  {
    k + |pat| <= |s| && s[k..k + |pat|] == pat
  }

  /** A string without an occurrence of the pattern is left as it is. */
  lemma {:induction false} ReplaceWithoutOccurrence(s: string, pat: string, rep: string)
    requires |pat| > 0
    requires forall k: nat :: !OccursAt(s, pat, k)
    ensures Replace(s, pat, rep) == s
  {
    if |s| >= |pat| {
      assert !OccursAt(s, pat, 0);
      forall k: nat ensures !OccursAt(s[1..], pat, k) {
        assert !OccursAt(s, pat, k + 1);
        if k + |pat| <= |s[1..]| {
          assert s[1..][k..k + |pat|] == s[k + 1..k + 1 + |pat|];
        }
      }
      ReplaceWithoutOccurrence(s[1..], pat, rep);
    }
  }

  const PadSuffix: string := " <pad>"

  /** `d.string(row).replace(' <pad>', '')`: the string a row is scored by. */
  function RowString(d: Dict, row: seq<int>): (s: string)
    ensures |s| <= |DictString(d, row)|
  {
    ReplaceByEmptyShortens(DictString(d, row), PadSuffix);
    Replace(DictString(d, row), PadSuffix, "")
  }

  /** `m` copies of `" <pad>"`: the printed tail of `m` trailing pad tokens. */
  function Pads(m: nat): string
  {
    if m == 0 then "" else PadSuffix + Pads(m - 1)
  }

  /** The replacement removes a run of `" <pad>"` entirely. */
  lemma {:induction false} ReplaceRemovesPads(m: nat)
    ensures Replace(Pads(m), PadSuffix, "") == ""
  {
    if m > 0 {
      assert Pads(m)[..|PadSuffix|] == PadSuffix;
      assert Pads(m)[|PadSuffix|..] == Pads(m - 1);
      ReplaceRemovesPads(m - 1);
    }
  }

  /**
   * `" <pad>"` overlaps no run of itself: a non-empty proper prefix of it,
   * followed by the run, does not start a match.
   */
  lemma NoMatchAcrossPads(s: string, m: nat)
    requires 0 < |s| < |PadSuffix| && m > 0
    ensures (s + Pads(m))[..|PadSuffix|] != PadSuffix
  {
    assert Pads(m)[0] == ' ';
    assert (s + Pads(m))[|s|] == ' ';
  }

  /**
   * Appending a run of `" <pad>"` to any string does not change what the
   * replacement leaves: the run is removed and nothing before it is touched.
   */
  lemma {:induction false} ReplaceIgnoresTrailingPads(s: string, m: nat)
    ensures Replace(s + Pads(m), PadSuffix, "") == Replace(s, PadSuffix, "")
    decreases |s|
  {
    var t := s + Pads(m);
    if m == 0 {
      assert t == s;
    } else if s == [] {
      assert t == Pads(m);
      ReplaceRemovesPads(m);
    } else if |s| >= |PadSuffix| {
      assert t[..|PadSuffix|] == s[..|PadSuffix|];
      if s[..|PadSuffix|] == PadSuffix {
        assert t[|PadSuffix|..] == s[|PadSuffix|..] + Pads(m);
        ReplaceIgnoresTrailingPads(s[|PadSuffix|..], m);
      } else {
        assert t[1..] == s[1..] + Pads(m);
        ReplaceIgnoresTrailingPads(s[1..], m);
      }
    } else {
      NoMatchAcrossPads(s, m);
      assert t[0] == s[0] && t[1..] == s[1..] + Pads(m);
      ReplaceIgnoresTrailingPads(s[1..], m);
      assert s == [s[0]] + s[1..];
    }
  }

  /** Joining with spaces, a run of `"<pad>"` symbols after a non-empty list prints as `Pads`. */
  lemma {:induction false} JoinSpacePads(strs: seq<string>, m: nat)
    requires strs != []
    ensures JoinSpace(strs + Repeat("<pad>", m)) == JoinSpace(strs) + Pads(m)
    decreases |strs|, m
  {
    var tail := Repeat("<pad>", m);
    if |strs| > 1 {
      assert (strs + tail)[1..] == strs[1..] + tail;
      JoinSpacePads(strs[1..], m);
    } else if m > 0 {
      assert strs + tail == [strs[0]] + (["<pad>"] + Repeat("<pad>", m - 1));
      assert (strs + tail)[1..] == ["<pad>"] + Repeat("<pad>", m - 1);
      JoinSpacePads(["<pad>"], m - 1);
    } else {
      assert strs + tail == strs;
    }
  }

  lemma {:induction false} SymbolsAppend(d: Dict, a: seq<int>, b: seq<int>)
    ensures Symbols(d, a + b) == Symbols(d, a) + Symbols(d, b)
  {
    if a == [] {
      assert a + b == b;
    } else {
      assert (a + b)[1..] == a[1..] + b;
      SymbolsAppend(d, a[1..], b);
    }
  }

  lemma {:induction false} SymbolsOfPads(d: Dict, m: nat)
    requires Symbol(d, d.pad) == "<pad>"
    ensures Symbols(d, Repeat(d.pad, m)) == Repeat("<pad>", m)
  {
    if m > 0 {
      assert Repeat(d.pad, m)[1..] == Repeat(d.pad, m - 1);
      SymbolsOfPads(d, m - 1);
    }
  }

  /** The printed form of a row followed by `m` pads: the row's, then `m` times `" <pad>"`. */
  lemma PrintedPads(d: Dict, row: seq<int>, m: nat)
    requires Symbol(d, d.pad) == "<pad>" && !Hidden(d, d.pad)
    requires Visible(d, row) != []
    ensures DictString(d, row + Repeat(d.pad, m)) == DictString(d, row) + Pads(m)
  {
    var pads := Repeat(d.pad, m);
    VisibleAppend(d, row, pads);
    assert Visible(d, pads) == pads;
    SymbolsAppend(d, Visible(d, row), pads);
    SymbolsOfPads(d, m);
    assert Symbols(d, Visible(d, row)) != [];
    JoinSpacePads(Symbols(d, Visible(d, row)), m);
  }

  /**
   * What `.replace(' <pad>', '')` is for: a row that prints at least one
   * symbol is scored the same however many pad tokens follow it.
   */
  lemma RowStringIgnoresTrailingPads(d: Dict, row: seq<int>, m: nat)
    requires Symbol(d, d.pad) == "<pad>" && !Hidden(d, d.pad)
    requires Visible(d, row) != []
    ensures RowString(d, row + Repeat(d.pad, m)) == RowString(d, row)
  {
    PrintedPads(d, row, m);
    ReplaceIgnoresTrailingPads(DictString(d, row), m);
  }

  /**
   * A row that prints nothing but `m > 0` pads has no space before its first
   * `<pad>`, so the replacement leaves that one in place.
   */
  lemma RowStringOfPadOnlyRow(d: Dict, row: seq<int>, m: nat)
    requires Symbol(d, d.pad) == "<pad>" && !Hidden(d, d.pad)
    requires Visible(d, row) == [] && m > 0
    ensures RowString(d, row + Repeat(d.pad, m)) == "<pad>"
  {
    var pads := Repeat(d.pad, m);
    VisibleAppend(d, row, pads);
    assert Visible(d, row + pads) == pads;
    SymbolsOfPads(d, m);
    assert Repeat("<pad>", m) == ["<pad>"] + Repeat("<pad>", m - 1);
    JoinSpacePads(["<pad>"], m - 1);
    assert DictString(d, row + pads) == "<pad>" + Pads(m - 1);
    ReplaceIgnoresTrailingPads("<pad>", m - 1);
    assert "<pad>"[..|PadSuffix| - 1] == "<pad>";
  }

  /** A printed row in which `" <pad>"` never occurs is scored as printed. */
  lemma RowStringWithoutPadding(d: Dict, row: seq<int>)
    requires forall k: nat :: !OccursAt(DictString(d, row), PadSuffix, k)
    ensures RowString(d, row) == DictString(d, row)
  {
    ReplaceWithoutOccurrence(DictString(d, row), PadSuffix, "");
  }

  // ---------------------------------------------------------------------------
  // The distance matrix

  /**
   * One cell of the matrix: the distance between the reference and the
   * candidate string, divided by the longer length when normalising.
   */
  function Entry(reference: string, candidate: string, normalize: bool): (e: real)
    requires normalize ==> Max(|reference|, |candidate|) > 0
    ensures 0.0 <= e
    ensures normalize ==> e <= 1.0
    ensures e == 0.0 <==> reference == candidate
  {
    LevBounds(reference, candidate);
    LevSelf(reference);
    LevZeroImpliesEqual(reference, candidate);
    if normalize then
      RatioInUnit(Lev(reference, candidate), Max(|reference|, |candidate|));
      Lev(reference, candidate) as real / Max(|reference|, |candidate|) as real
    else Lev(reference, candidate) as real
  }

  lemma RatioInUnit(n: nat, m: nat)
    requires 0 < m && n <= m
    ensures 0.0 <= n as real / m as real <= 1.0
    ensures n as real / m as real == 0.0 <==> n == 0
  {
  }

  /** Swapping reference and candidate does not change a cell. */
  lemma EntrySymmetric(reference: string, candidate: string, normalize: bool)
    requires normalize ==> Max(|reference|, |candidate|) > 0
    ensures Entry(reference, candidate, normalize) == Entry(candidate, reference, normalize)
  {
    LevSymmetric(reference, candidate);
  }

  /** Normalising rescales the raw distance by the longer length. */
  lemma EntryNormalized(reference: string, candidate: string)
    requires Max(|reference|, |candidate|) > 0
    ensures Entry(reference, candidate, true) * Max(|reference|, |candidate|) as real
            == Entry(reference, candidate, false)
  {
  }

  /** `v` is the cell for this pair: its division, if any, is defined and `v` is its value. */
  predicate Scored(v: real, reference: string, candidate: string, normalize: bool)
  {
    (normalize ==> Max(|reference|, |candidate|) > 0) && v == Entry(reference, candidate, normalize)
  }

  /** Candidate `idx`, row `b`, as a string; candidate tensors have one row per batch item. */
  function CandidateString(d: Dict, cands: seq<array2<int>>, idx: nat, b: nat): string
    requires idx < |cands| && b < cands[idx].Length0
    reads cands[idx]
  {
    RowString(d, Row(cands[idx], b))
  }

  /** The candidate strings of column `idx`, one per row. */
  ghost function ColumnStrings(d: Dict, cands: seq<array2<int>>, idx: nat): (r: seq<string>)
    requires idx < |cands|
    reads cands[idx]
    ensures |r| == cands[idx].Length0
    ensures forall b :: 0 <= b < |r| ==> r[b] == CandidateString(d, cands, idx, b)
  {
    seq(cands[idx].Length0, b reads cands[idx] requires 0 <= b < cands[idx].Length0 => CandidateString(d, cands, idx, b))
  }

  /** The normalised distance of some cell of column `idx` would divide by zero. */
  ghost predicate ColumnHasEmptyPair(d: Dict, target: array2<int>, cands: seq<array2<int>>, idx: nat)
    requires forall c :: c in cands ==> c.Length0 == target.Length0
    requires idx < |cands|
    reads target, cands[idx]
  {
    exists b :: 0 <= b < target.Length0 &&
      RowString(d, Row(target, b)) == [] && CandidateString(d, cands, idx, b) == []
  }

  /** The normalised distance of some cell would divide by zero. */
  ghost predicate SomeEmptyPair(d: Dict, target: array2<int>, cands: seq<array2<int>>)
    requires forall c :: c in cands ==> c.Length0 == target.Length0
    reads target, set c | c in cands
  {
    exists idx, b :: 1 <= idx < |cands| && 0 <= b < target.Length0 &&
      RowString(d, Row(target, b)) == [] && CandidateString(d, cands, idx, b) == []
  }

  /**
   * Fill column `idx` of the matrix, one batch row at a time, or fail on the
   * first row whose normalised distance divides by zero.
   */
  method ScoreColumn(d: Dict, target: array2<int>, cands: seq<array2<int>>, normalize: bool,
                     strRef: seq<string>, lev: array2<real>, idx: nat)
    returns (r: Result<array2<real>>)
    requires forall c :: c in cands ==> c.Length0 == target.Length0
    requires |strRef| == target.Length0 == lev.Length0 && lev.Length1 == |cands|
    requires forall i :: 0 <= i < |strRef| ==> strRef[i] == RowString(d, Row(target, i))
    requires 1 <= idx < |cands|
    requires forall b :: 0 <= b < lev.Length0 ==> lev[b, idx] == 0.0
    modifies lev
    ensures r.Failure? <==> normalize && ColumnHasEmptyPair(d, target, cands, idx)
    ensures r.Failure? ==> r.error == DivisionByZero
    ensures r.Success? ==> r.value == lev
    ensures forall b, i :: 0 <= b < lev.Length0 && 0 <= i < lev.Length1 && i != idx ==> lev[b, i] == old(lev[b, i])
    ensures r.Success? ==> forall b :: 0 <= b < lev.Length0 ==>
              Scored(lev[b, idx], strRef[b], CandidateString(d, cands, idx, b), normalize)
  {
    ghost var denoms := ColumnStrings(d, cands, idx);
    for b := 0 to lev.Length0
      invariant forall b', i :: 0 <= b' < lev.Length0 && 0 <= i < lev.Length1 && i != idx ==> lev[b', i] == old(lev[b', i])
      invariant forall b' :: b <= b' < lev.Length0 ==> lev[b', idx] == 0.0
      invariant forall b' :: 0 <= b' < b ==> Scored(lev[b', idx], strRef[b'], denoms[b'], normalize)
      invariant normalize ==> forall b' :: 0 <= b' < b ==> !(strRef[b'] == [] && denoms[b'] == [])
    {
      var strDenom := CandidateString(d, cands, idx, b);
      assert lev[b, idx] == 0.0;
      if normalize {
        var lenStr := Max(|strRef[b]|, |strDenom|);
        if lenStr == 0 {
          return Failure(DivisionByZero);
        }
        lev[b, idx] := Lev(strRef[b], strDenom) as real / lenStr as real;
      } else {
        lev[b, idx] := Lev(strRef[b], strDenom) as real;
      }
    }
    return Success(lev);
  }

  /**
   * The `levenshtein` matrix: zero-initialised, one column per candidate;
   * column 0 (the ground truth) is never written, and each other cell is
   * checked to be zero before it is set. Python raises on a normalised cell
   * whose two strings are both empty.
   */
  method LevenshteinMatrix(d: Dict, target: array2<int>, cands: seq<array2<int>>, normalize: bool)
    returns (r: Result<array2<real>>)
    requires forall c :: c in cands ==> c.Length0 == target.Length0
    ensures r.Failure? <==> normalize && SomeEmptyPair(d, target, cands)
    ensures r.Failure? ==> r.error == DivisionByZero
    ensures r.Success? ==> fresh(r.value)
    ensures r.Success? ==> r.value.Length0 == target.Length0 && r.value.Length1 == |cands|
    ensures r.Success? ==> forall b :: 0 <= b < target.Length0 && 0 < |cands| ==> r.value[b, 0] == 0.0
    ensures r.Success? ==> forall b, idx :: 0 <= b < target.Length0 && 1 <= idx < |cands| ==>
              Scored(r.value[b, idx], RowString(d, Row(target, b)), CandidateString(d, cands, idx, b), normalize)
  {
    var batch := target.Length0;
    var strRef: seq<string> := [];
    for b := 0 to batch
      invariant |strRef| == b
      invariant forall i :: 0 <= i < b ==> strRef[i] == RowString(d, Row(target, i))
    {
      strRef := strRef + [RowString(d, Row(target, b))];
    }
    var lev := new real[batch, |cands|]((_, _) => 0.0);
    var idx := 1;
    while idx < |cands|
      invariant 1 <= idx <= Max(1, |cands|)
      invariant forall b, i :: 0 <= b < batch && 0 <= i < |cands| && (i == 0 || idx <= i) ==> lev[b, i] == 0.0
      invariant forall b, i :: 0 <= b < batch && 1 <= i < idx ==>
                  Scored(lev[b, i], strRef[b], CandidateString(d, cands, i, b), normalize)
    {
      r := ScoreColumn(d, target, cands, normalize, strRef, lev, idx);
      if r.Failure? {
        assert SomeEmptyPair(d, target, cands) by {
          var b :| 0 <= b < batch && RowString(d, Row(target, b)) == [] && CandidateString(d, cands, idx, b) == [];
          assert 1 <= idx < |cands|;
        }
        return;
      }
      idx := idx + 1;
    }
    return Success(lev);
  }

  // ---------------------------------------------------------------------------
  // Legacy linear soft labels

  function SumR(xs: seq<real>): real
  {
    if xs == [] then 0.0 else xs[0] + SumR(xs[1..])
  }

  /** `row.max(-1)`. */
  function MaxR(xs: seq<real>): (m: real)
    requires |xs| > 0
    ensures forall i :: 0 <= i < |xs| ==> xs[i] <= m
    ensures exists i :: 0 <= i < |xs| && xs[i] == m
  {
    if |xs| == 1 then xs[0]
    else
      var rest := MaxR(xs[1..]);
      if xs[0] >= rest then xs[0]
      else
        assert exists i :: 1 <= i < |xs| && xs[i] == rest by {
          var k :| 0 <= k < |xs[1..]| && xs[1..][k] == rest;
          assert xs[k + 1] == rest;
        }
        rest
  }

  /** `m - xs`, element by element. */
  function Gaps(m: real, xs: seq<real>): (r: seq<real>)
    ensures |r| == |xs|
    ensures forall i :: 0 <= i < |xs| ==> r[i] == m - xs[i]
  {
    if xs == [] then [] else [m - xs[0]] + Gaps(m, xs[1..])
  }

  /** `xs / s`, element by element. */
  function Scale(xs: seq<real>, s: real): (r: seq<real>)
    requires s != 0.0
    ensures |r| == |xs|
    ensures forall i :: 0 <= i < |xs| ==> r[i] == xs[i] / s
  {
    if xs == [] then [] else [xs[0] / s] + Scale(xs[1..], s)
  }

  lemma {:induction false} SumScale(xs: seq<real>, s: real)
    requires s != 0.0
    ensures SumR(Scale(xs, s)) == SumR(xs) / s
  {
    if xs != [] {
      SumScale(xs[1..], s);
      var t := Scale(xs, s);
      assert t[1..] == Scale(xs[1..], s);
      assert SumR(t) == xs[0] / s + SumR(xs[1..]) / s;
      DivAdd(xs[0], SumR(xs[1..]), s);
    }
  }

  lemma DivAdd(a: real, b: real, s: real)
    requires s != 0.0
    ensures a / s + b / s == (a + b) / s
  {
  }

  lemma {:induction false} SumNonNegative(xs: seq<real>)
    requires forall i :: 0 <= i < |xs| ==> xs[i] >= 0.0
    ensures SumR(xs) >= 0.0
    ensures SumR(xs) == 0.0 ==> forall i :: 0 <= i < |xs| ==> xs[i] == 0.0
  {
    if xs != [] {
      SumNonNegative(xs[1..]);
      assert forall i :: 1 <= i < |xs| ==> xs[i] == xs[1..][i - 1];
    }
  }

  /**
   * The legacy soft labels of one row, `(max - row) / sum(max - row)`. A row
   * whose entries are all equal makes the sum zero and the tensor division
   * yields NaN, and `max` of an empty row raises; the model reports both as
   * `None`.
   */
  function LinearSoftLabels(row: seq<real>): (p: Option<seq<real>>)
    ensures p.Some? ==> |p.value| == |row|
  {
    if row == [] then None
    else
      var gaps := Gaps(MaxR(row), row);
      if SumR(gaps) == 0.0 then None else Some(Scale(gaps, SumR(gaps)))
  }

  /** Soft labels exist exactly for the rows whose distances are not all equal. */
  lemma LinearSoftLabelsUndefinedIffConstant(row: seq<real>)
    ensures LinearSoftLabels(row).None? <==>
            forall i, j :: 0 <= i < |row| && 0 <= j < |row| ==> row[i] == row[j]
  {
    if row != [] {
      var m := MaxR(row);
      var gaps := Gaps(m, row);
      SumNonNegative(gaps);
      SumZero(gaps);
      if SumR(gaps) == 0.0 {
        forall i, j | 0 <= i < |row| && 0 <= j < |row| ensures row[i] == row[j] {
          assert gaps[i] == 0.0 && gaps[j] == 0.0;
        }
      } else {
        var k :| 0 <= k < |gaps| && gaps[k] != 0.0;
        var k' :| 0 <= k' < |row| && row[k'] == m;
        assert row[k] != row[k'];
      }
    }
  }

  /** Defined soft labels form a probability distribution over the candidates. */
  lemma LinearSoftLabelsDistribution(row: seq<real>)
    requires LinearSoftLabels(row).Some?
    ensures SumR(LinearSoftLabels(row).value) == 1.0
    ensures forall i :: 0 <= i < |row| ==> LinearSoftLabels(row).value[i] >= 0.0
  {
    var gaps := Gaps(MaxR(row), row);
    var total := SumR(gaps);
    var labels := Scale(gaps, total);
    assert LinearSoftLabels(row).value == labels;
    SumNonNegative(gaps);
    ScaleBySum(gaps);
    forall i | 0 <= i < |row| ensures labels[i] >= 0.0 {
      DivNonNegative(gaps[i], total);
    }
  }

  lemma DivNonNegative(a: real, t: real)
    requires a >= 0.0 && t > 0.0
    ensures a / t >= 0.0
  {
  }

  /** A closer candidate never gets a smaller soft label. */
  lemma LinearSoftLabelsAntitone(row: seq<real>, i: nat, j: nat)
    requires LinearSoftLabels(row).Some?
    requires i < |row| && j < |row| && row[i] <= row[j]
    ensures LinearSoftLabels(row).value[i] >= LinearSoftLabels(row).value[j]
  {
    var gaps := Gaps(MaxR(row), row);
    SumNonNegative(gaps);
    var total := SumR(gaps);
    assert total > 0.0;
    assert gaps[i] >= gaps[j];
    DivMonotone(gaps[i], gaps[j], total);
    assert LinearSoftLabels(row).value == Scale(gaps, total);
  }

  lemma ScaleBySum(xs: seq<real>)
    requires SumR(xs) != 0.0
    ensures SumR(Scale(xs, SumR(xs))) == 1.0
  {
    var t := SumR(xs);
    SumScale(xs, t);
    assert t / t == 1.0;
  }

  /**
   * Two different distances make the labels defined, and the strictly smaller
   * distance gets the strictly larger label.
   */
  lemma LinearSoftLabelsStrictlyAntitone(row: seq<real>, i: nat, j: nat)
    requires i < |row| && j < |row| && row[i] < row[j]
    ensures LinearSoftLabels(row).Some? && LinearSoftLabels(row).value[i] > LinearSoftLabels(row).value[j]
  {
    LinearSoftLabelsUndefinedIffConstant(row);
    var gaps := Gaps(MaxR(row), row);
    SumNonNegative(gaps);
    var total := SumR(gaps);
    assert total > 0.0;
    DivStrictlyMonotone(gaps[i], gaps[j], total);
    assert LinearSoftLabels(row).value == Scale(gaps, total);
  }

  lemma DivStrictlyMonotone(a: real, b: real, t: real)
    requires t > 0.0 && a > b
    ensures a / t > b / t
  {
    assert a / t - b / t == (a - b) / t;
  }

  lemma DivMonotone(a: real, b: real, t: real)
    requires t > 0.0 && a >= b
    ensures a / t >= b / t
  {
    assert a / t - b / t == (a - b) / t;
  }

  lemma {:induction false} SumZero(xs: seq<real>)
    ensures (forall i :: 0 <= i < |xs| ==> xs[i] == 0.0) ==> SumR(xs) == 0.0
  {
    if xs != [] {
      SumZero(xs[1..]);
      assert forall i :: 1 <= i < |xs| ==> xs[i] == xs[1..][i - 1];
    }
  }

  /**
   * The ground truth's column has distance 0 and every corruption a distance
   * at least 0, so its legacy soft label is the largest of the row, and
   * strictly larger than that of every candidate at a positive distance.
   */
  lemma NumeratorLabelIsMaximal(row: seq<real>)
    requires |row| > 0 && row[0] == 0.0
    requires forall i :: 0 <= i < |row| ==> row[i] >= 0.0
    requires LinearSoftLabels(row).Some?
    ensures forall i :: 0 <= i < |row| ==> LinearSoftLabels(row).value[0] >= LinearSoftLabels(row).value[i]
    ensures forall i :: 0 < i < |row| && row[i] > 0.0 ==>
              LinearSoftLabels(row).value[0] > LinearSoftLabels(row).value[i]
  {
    forall i | 0 <= i < |row| ensures LinearSoftLabels(row).value[0] >= LinearSoftLabels(row).value[i] {
      LinearSoftLabelsAntitone(row, 0, i);
    }
    forall i | 0 < i < |row| && row[i] > 0.0
      ensures LinearSoftLabels(row).value[0] > LinearSoftLabels(row).value[i]
    {
      LinearSoftLabelsStrictlyAntitone(row, 0, i);
    }
  }
}

=== FILE: evaluation.dfy ===
/**
 * Validation bookkeeping of the criterion: greedy CTC decoding of the frame
 * argmaxes, and the character and word error counters accumulated over a
 * batch.
 */
module Evaluation {
  import opened Common
  import opened Words
  import opened Lengths
  import opened EditDistance

  // ---------------------------------------------------------------------------
  // Greedy CTC decoding

  /** `lp[:inp_l]`: Python slicing, which clamps and counts negative ends from the back. */
  function SliceTo(frames: seq<int>, end: int): (r: seq<int>)
    ensures |r| <= |frames|
    ensures r == frames[..|r|]
    ensures 0 <= end ==> |r| == Min(end, |frames|)
  {
    if end >= 0 then frames[..Min(end, |frames|)]
    else frames[..Max(0, |frames| + end)]
  }

  /** `unique_consecutive()`: every run of equal neighbours collapsed to one element. */
  function UniqueConsecutive(xs: seq<int>): (r: seq<int>)
    ensures |r| <= |xs|
    ensures |r| == 0 <==> |xs| == 0
    ensures |xs| > 0 ==> r[0] == xs[0]
    ensures forall t :: t in r ==> t in xs
  {
    if |xs| <= 1 then xs
    else if xs[0] == xs[1] then UniqueConsecutive(xs[1..])
    else [xs[0]] + UniqueConsecutive(xs[1..])
  }

  predicate NoAdjacentRepeats(xs: seq<int>)
  {
    forall i :: 0 <= i < |xs| - 1 ==> xs[i] != xs[i + 1]
  }

  /** After collapsing, no two neighbours are equal. */
  lemma {:induction false} UniqueConsecutiveHasNoRepeats(xs: seq<int>)
    ensures NoAdjacentRepeats(UniqueConsecutive(xs))
  {
    if |xs| > 1 {
      UniqueConsecutiveHasNoRepeats(xs[1..]);
      if xs[0] != xs[1] {
        var r := UniqueConsecutive(xs);
        assert r[1..] == UniqueConsecutive(xs[1..]);
        forall i | 0 <= i < |r| - 1 ensures r[i] != r[i + 1] {
          if i > 0 {
            assert r[i] == r[1..][i - 1] && r[i + 1] == r[1..][i];
          }
        }
      }
    }
  }

  /** A sequence without repeated neighbours is left unchanged. */
  lemma {:induction false} UniqueConsecutiveFixesCollapsed(xs: seq<int>)
    requires NoAdjacentRepeats(xs)
    ensures UniqueConsecutive(xs) == xs
  {
    if |xs| > 1 {
      assert NoAdjacentRepeats(xs[1..]) by {
        forall i | 0 <= i < |xs[1..]| - 1 ensures xs[1..][i] != xs[1..][i + 1] {
          assert xs[i + 1] != xs[i + 2];
        }
      }
      UniqueConsecutiveFixesCollapsed(xs[1..]);
      assert xs[0] != xs[1];
      assert xs == [xs[0]] + xs[1..];
    }
  }

  /** Collapsing twice is collapsing once. */
  lemma UniqueConsecutiveIdempotent(xs: seq<int>)
    ensures UniqueConsecutive(UniqueConsecutive(xs)) == UniqueConsecutive(xs)
  {
    UniqueConsecutiveHasNoRepeats(xs);
    UniqueConsecutiveFixesCollapsed(UniqueConsecutive(xs));
  }

  /** `xs` with its element at `i` emitted for one more frame. */
  function Stutter(xs: seq<int>, i: nat): seq<int>
    requires i < |xs|
  {
    xs[..i + 1] + [xs[i]] + xs[i + 1..]
  }

  /**
   * Holding an output for one more frame never changes what is decoded: the
   * collapse cannot tell a longer run from a shorter one.
   */
  lemma {:induction false} UniqueConsecutiveIgnoresStutter(xs: seq<int>, i: nat)
    requires i < |xs|
    ensures UniqueConsecutive(Stutter(xs, i)) == UniqueConsecutive(xs)
  {
    var ys := Stutter(xs, i);
    if i == 0 {
      assert ys[0] == ys[1];
      assert ys[1..] == xs;
    } else {
      assert ys[0] == xs[0];
      assert ys[1..] == Stutter(xs[1..], i - 1);
      UniqueConsecutiveIgnoresStutter(xs[1..], i - 1);
      assert ys[1] == xs[1];
    }
  }

  /** `toks[toks != blank]`. */
  function DropToken(xs: seq<int>, tok: int): (r: seq<int>)
    ensures |r| <= |xs|
    ensures tok !in r
    ensures forall t :: t in r ==> t in xs
  {
    if xs == [] then []
    else if xs[0] == tok then DropToken(xs[1..], tok)
    else [xs[0]] + DropToken(xs[1..], tok)
  }

  /** Dropping the blank keeps every other token exactly as often as it occurs. */
  lemma {:induction false} DropTokenCounts(xs: seq<int>, tok: int)
    ensures forall t :: t != tok ==> multiset(DropToken(xs, tok))[t] == multiset(xs)[t]
  {
    if xs != [] {
      DropTokenCounts(xs[1..], tok);
      assert xs == [xs[0]] + xs[1..];
    }
  }

  /** Dropping the blank keeps the order of the other tokens: it works piece by piece. */
  lemma {:induction false} DropTokenAppend(a: seq<int>, b: seq<int>, tok: int)
    ensures DropToken(a + b, tok) == DropToken(a, tok) + DropToken(b, tok)
  {
    if a == [] {
      assert a + b == b;
    } else {
      assert (a + b)[1..] == a[1..] + b;
      DropTokenAppend(a[1..], b, tok);
    }
  }

  /**
   * Greedy CTC decoding of one utterance: the best label of each of its first
   * `inputLength` frames, runs collapsed, blanks dropped.
   */
  function Greedy(argmaxFrames: seq<int>, inputLength: int, blank: int): (pred: seq<int>)
    ensures blank !in pred
    ensures |pred| <= |argmaxFrames|
    ensures 0 <= inputLength ==> |pred| <= inputLength
    ensures forall t :: t in pred ==> t in argmaxFrames
  {
    DropToken(UniqueConsecutive(SliceTo(argmaxFrames, inputLength)), blank)
  }

  // ---------------------------------------------------------------------------
  // Error counters

  /** The printed form of one word: its symbols concatenated. */
  function WordString(d: Dict, w: seq<int>): string
  {
    if w == [] then "" else Symbol(d, w[0]) + WordString(d, w[1..])
  }

  function WordStrings(d: Dict, ws: seq<seq<int>>): (r: seq<string>)
    ensures |r| == |ws|
  {
    if ws == [] then [] else [WordString(d, ws[0])] + WordStrings(d, ws[1..])
  }

  /** `post_process(d.string(units), "letter").split()`. */
  function LetterWordStrings(d: Dict, units: seq<int>): seq<string>
  {
    WordStrings(d, LetterWords(d, units))
  }

  /**
   * One utterance of a validation batch: the argmax label of every encoder
   * frame, the target row, the input length, and the words of the external
   * decoder's best hypothesis when it produced one with a `words` entry.
   */
  datatype EvalItem = EvalItem(argmaxFrames: seq<int>, target: seq<int>, inputLength: int,
                               decodedWords: Option<seq<string>>)

  /** The five counters a validation step logs. */
  datatype Counts = Counts(cErrors: nat, cTotal: nat, wErrors: nat, wvErrors: nat, wTotal: nat)

  const NoCounts := Counts(0, 0, 0, 0, 0)

  function Add(a: Counts, b: Counts): Counts
  {
    Counts(a.cErrors + b.cErrors, a.cTotal + b.cTotal, a.wErrors + b.wErrors,
           a.wvErrors + b.wvErrors, a.wTotal + b.wTotal)
  }

  /** What one utterance adds to the counters. */
  function ItemCounts(d: Dict, blank: int, it: EvalItem): Counts
  {
    var targ := KeptTokens(d, it.target);
    var pred := Greedy(it.argmaxFrames, it.inputLength, blank);
    var targWords := LetterWordStrings(d, targ);
    var predWordsRaw := LetterWordStrings(d, pred);
    var rawDist := Lev(predWordsRaw, targWords);
    var wordDist := if it.decodedWords.Some? then Lev(it.decodedWords.value, targWords) else rawDist;
    Counts(Lev(pred, targ), |targ|, wordDist, rawDist, |targWords|)
  }

  /** The counters after the first utterances of the batch, in order. */
  function BatchCounts(d: Dict, blank: int, items: seq<EvalItem>): Counts
  {
    if items == [] then NoCounts
    else Add(BatchCounts(d, blank, items[..|items| - 1]), ItemCounts(d, blank, items[|items| - 1]))
  }

  /**
   * The body of the validation loop for one utterance: add its character
   * distance and target length, its decoded and raw word distances (the raw
   * one twice without decoder words) and its word count.
   */
  method AccumulateItem(d: Dict, blank: int, it: EvalItem, acc: Counts) returns (next: Counts)
    ensures next == Add(acc, ItemCounts(d, blank, it))
  {
    var cErr, cLen, wErrs, wvErrs, wLen := acc.cErrors, acc.cTotal, acc.wErrors, acc.wvErrors, acc.wTotal;
    var targ := KeptTokens(d, it.target);
    var pred := Greedy(it.argmaxFrames, it.inputLength, blank);
    cErr, cLen := AddCharErrors(pred, targ, cErr, cLen);
    var targWords := LetterWordStrings(d, targ);
    var predWordsRaw := LetterWordStrings(d, pred);
    wErrs, wvErrs := AddWordErrors(it.decodedWords, predWordsRaw, targWords, wErrs, wvErrs);
    wLen := wLen + |targWords|;
    next := Counts(cErr, cLen, wErrs, wvErrs, wLen);
  }

  /** The character part of the loop body: the distance of the units and the target length. */
  method AddCharErrors(pred: seq<int>, targ: seq<int>, cErr: nat, cLen: nat) returns (cErr': nat, cLen': nat)
    ensures cErr' == cErr + Lev(pred, targ)
    ensures cLen' == cLen + |targ|
  {
    cErr' := cErr + Lev(pred, targ);
    cLen' := cLen + |targ|;
  }

  /**
   * The word-error part of the loop body: the decoder's words are scored when
   * there are any, the raw greedy words always; without decoder words the raw
   * distance goes to both counters.
   */
  method AddWordErrors(decoded: Option<seq<string>>, predWordsRaw: seq<string>, targWords: seq<string>,
                       wErrs: nat, wvErrs: nat)
    returns (wErrs': nat, wvErrs': nat)
    ensures wvErrs' == wvErrs + Lev(predWordsRaw, targWords)
    ensures decoded.Some? ==> wErrs' == wErrs + Lev(decoded.value, targWords)
    ensures decoded.None? ==> wErrs' - wErrs == wvErrs' - wvErrs
  {
    if decoded.Some? {
      wErrs' := wErrs + Lev(decoded.value, targWords);
      wvErrs' := wvErrs + Lev(predWordsRaw, targWords);
    } else {
      var dist := Lev(predWordsRaw, targWords);
      wErrs' := wErrs + dist;
      wvErrs' := wvErrs + dist;
    }
  }

  /** The validation loop over the utterances of a batch, in order. */
  method EvaluateBatch(d: Dict, blank: int, items: seq<EvalItem>) returns (c: Counts)
    ensures c == BatchCounts(d, blank, items)
  {
    c := NoCounts;
    for i := 0 to |items|
      invariant c == BatchCounts(d, blank, items[..i])
    {
      BatchCountsStep(d, blank, items, i);
      c := AccumulateItem(d, blank, items[i], c);
    }
    assert items[..|items|] == items;
  }

  /** Extending the prefix by one utterance adds that utterance's counts. */
  lemma BatchCountsStep(d: Dict, blank: int, items: seq<EvalItem>, i: nat)
    requires i < |items|
    ensures BatchCounts(d, blank, items[..i + 1]) == Add(BatchCounts(d, blank, items[..i]), ItemCounts(d, blank, items[i]))
  {
    var pre := items[..i + 1];
    assert pre[..|pre| - 1] == items[..i];
    assert pre[|pre| - 1] == items[i];
  }

  /** Without decoder words the decoded and raw word errors coincide. */
  lemma {:induction false} NoDecoderSameWordErrors(d: Dict, blank: int, items: seq<EvalItem>)
    requires forall i :: 0 <= i < |items| ==> items[i].decodedWords.None?
    ensures BatchCounts(d, blank, items).wErrors == BatchCounts(d, blank, items).wvErrors
  {
    if items != [] {
      NoDecoderSameWordErrors(d, blank, items[..|items| - 1]);
    }
  }

  function Targets(items: seq<EvalItem>): (ts: seq<seq<int>>)
    ensures |ts| == |items|
    ensures forall i :: 0 <= i < |items| ==> ts[i] == items[i].target
  {
    if items == [] then [] else [items[0].target] + Targets(items[1..])
  }

  /**
   * The character total counts every target token but pad and eos. When the
   * batch has no `target_label`, so that validation scores against the same
   * rows the loss flattens, it is the length of the loss's flat target list.
   */
  lemma {:induction false} CharTotalCountsKeptTargets(d: Dict, blank: int, items: seq<EvalItem>)
    ensures BatchCounts(d, blank, items).cTotal == |TargetsFlat(d, Targets(items))|
  {
    if items != [] {
      var n := |items| - 1;
      var front := items[..n];
      CharTotalCountsKeptTargets(d, blank, front);
      var pre, last := BatchCounts(d, blank, front), ItemCounts(d, blank, items[n]);
      assert BatchCounts(d, blank, items).cTotal == pre.cTotal + last.cTotal;
      ItemCharTotal(d, blank, items[n]);
      var ts := Targets(front);
      FlatAppend(d, ts, items[n].target);
      TargetsSnoc(items);
    }
  }

  lemma TargetsSnoc(items: seq<EvalItem>)
    requires items != []
    ensures Targets(items) == Targets(items[..|items| - 1]) + [items[|items| - 1].target]
  {
    var n := |items| - 1;
    var a, b := Targets(items), Targets(items[..n]) + [items[n].target];
    assert |a| == |b|;
    forall i | 0 <= i < |a| ensures a[i] == b[i] {
      if i < n {
        assert b[i] == Targets(items[..n])[i] == items[..n][i].target;
      }
    }
  }

  lemma ItemCharTotal(d: Dict, blank: int, it: EvalItem)
    ensures ItemCounts(d, blank, it).cTotal == |KeptTokens(d, it.target)|
  {
  }

  lemma {:induction false} FlatAppend(d: Dict, ts: seq<seq<int>>, t: seq<int>)
    ensures |TargetsFlat(d, ts + [t])| == |TargetsFlat(d, ts)| + |KeptTokens(d, t)|
  {
    if ts == [] {
      assert [t][1..] == [];
    } else {
      assert (ts + [t])[1..] == ts[1..] + [t];
      FlatAppend(d, ts[1..], t);
    }
  }

  /**
   * One utterance's character errors lie between the length difference and
   * the longer of prediction and target, and vanish exactly when the greedy
   * prediction is the target.
   */
  lemma ItemCharErrors(d: Dict, blank: int, it: EvalItem)
    ensures var targ := KeptTokens(d, it.target);
            var pred := Greedy(it.argmaxFrames, it.inputLength, blank);
            ItemCounts(d, blank, it).cErrors <= Max(|pred|, |targ|) &&
            ItemCounts(d, blank, it).cErrors >= |targ| - |pred| &&
            (ItemCounts(d, blank, it).cErrors == 0 <==> pred == targ)
  {
    var targ := KeptTokens(d, it.target);
    var pred := Greedy(it.argmaxFrames, it.inputLength, blank);
    LevBounds(pred, targ);
    LevSelf(pred);
    LevZeroImpliesEqual(pred, targ);
  }
}

=== FILE: lengths.dfy ===
/**
 * The lengths handed to the CTC loss: per-utterance input lengths, the
 * target mask that drops pad and eos, the flattened targets it selects, the
 * target lengths, and the token count and sample size of a batch.
 */
module Lengths {
  import opened Common

  // ---------------------------------------------------------------------------
  // Boolean masks

  /** `mask.sum()`: the number of set entries. */
  function CountTrue(mask: seq<bool>): (n: nat)
    ensures n <= |mask|
  {
    if mask == [] then 0 else (if mask[0] then 1 else 0) + CountTrue(mask[1..])
  }

  /** `row.masked_select(mask)` for one row: the entries under set mask bits, in order. */
  function MaskedSelect(row: seq<int>, mask: seq<bool>): (r: seq<int>)
    requires |mask| == |row|
    ensures forall t :: t in r ==> t in row
  {
    if row == [] then []
    else if mask[0] then [row[0]] + MaskedSelect(row[1..], mask[1..])
    else MaskedSelect(row[1..], mask[1..])
  }

  /** A masked select keeps exactly as many entries as the mask has set bits. */
  lemma {:induction false} MaskedSelectLength(row: seq<int>, mask: seq<bool>)
    requires |mask| == |row|
    ensures |MaskedSelect(row, mask)| == CountTrue(mask)
  {
    if row != [] {
      MaskedSelectLength(row[1..], mask[1..]);
    }
  }

  // ---------------------------------------------------------------------------
  // Targets

  /** `(t != pad) & (t != eos)`: a target token the CTC loss sees. */
  predicate Kept(d: Dict, tok: int)
  {
    tok != d.pad && tok != d.eos
  }

  /** `pad_mask` of one target row. */
  function TargetMask(d: Dict, row: seq<int>): (m: seq<bool>)
    ensures |m| == |row|
    ensures forall j :: 0 <= j < |row| ==> (m[j] <==> Kept(d, row[j]))
  {
    if row == [] then [] else [Kept(d, row[0])] + TargetMask(d, row[1..])
  }

  /** `t[p]`: the tokens of one target row that survive the mask. */
  function KeptTokens(d: Dict, row: seq<int>): seq<int>
  {
    MaskedSelect(row, TargetMask(d, row))
  }

  /**
   * The masked row holds every kept token as often as the row does, and no
   * pad or eos at all.
   */
  lemma {:induction false} KeptTokensCounts(d: Dict, row: seq<int>)
    ensures forall t :: Kept(d, t) ==> multiset(KeptTokens(d, row))[t] == multiset(row)[t]
    ensures forall t :: !Kept(d, t) ==> multiset(KeptTokens(d, row))[t] == 0
  {
    if row != [] {
      KeptTokensCounts(d, row[1..]);
      assert row == [row[0]] + row[1..];
      assert TargetMask(d, row)[1..] == TargetMask(d, row[1..]);
    }
  }

  /** A row without pad or eos passes through the mask unchanged. */
  lemma {:induction false} KeptTokensOfCleanRow(d: Dict, row: seq<int>)
    requires forall j :: 0 <= j < |row| ==> Kept(d, row[j])
    ensures KeptTokens(d, row) == row
  {
    if row != [] {
      assert TargetMask(d, row)[1..] == TargetMask(d, row[1..]);
      KeptTokensOfCleanRow(d, row[1..]);
    }
  }

  /** `sample["target"].masked_select(pad_mask)`: all kept tokens, row after row. */
  function TargetsFlat(d: Dict, target: seq<seq<int>>): seq<int>
  {
    if target == [] then [] else KeptTokens(d, target[0]) + TargetsFlat(d, target[1..])
  }

  /** `pad_mask.sum(-1)`: the kept-token count of every row. */
  function DerivedTargetLengths(d: Dict, target: seq<seq<int>>): (r: seq<int>)
    ensures |r| == |target|
    ensures forall i :: 0 <= i < |target| ==> 0 <= r[i] <= |target[i]|
    ensures forall i :: 0 <= i < |target| ==> r[i] == |KeptTokens(d, target[i])|
  {
    if target == [] then []
    else
      MaskedSelectLength(target[0], TargetMask(d, target[0]));
      [CountTrue(TargetMask(d, target[0]))] + DerivedTargetLengths(d, target[1..])
  }

  /** `sample["target_lengths"]` when the batch carries it, otherwise the derived lengths. */
  function TargetLengths(d: Dict, target: seq<seq<int>>, given: Option<seq<int>>): (r: seq<int>)
    ensures given.Some? ==> r == given.value
    ensures given.None? ==> r == DerivedTargetLengths(d, target)
  {
    if given.Some? then given.value else DerivedTargetLengths(d, target)
  }

  /**
   * The derived lengths add up to the length of the flat target list, so the
   * CTC loss reads every kept token once.
   */
  lemma {:induction false} DerivedLengthsCoverTargets(d: Dict, target: seq<seq<int>>)
    ensures Sum(DerivedTargetLengths(d, target)) == |TargetsFlat(d, target)|
  {
    if target != [] {
      DerivedLengthsCoverTargets(d, target[1..]);
      MaskedSelectLength(target[0], TargetMask(d, target[0]));
    }
  }

  /**
   * The derived lengths cut the flat target list into the rows' kept tokens:
   * reading `r[i]` tokens after the first `r[0] + … + r[i-1]` gives row `i`'s,
   * which is how the CTC loss pairs each utterance with its target.
   */
  lemma DerivedLengthsSliceTargets(d: Dict, target: seq<seq<int>>, i: nat)
    requires i < |target|
    ensures var r := DerivedTargetLengths(d, target);
            0 <= Sum(r[..i]) && Sum(r[..i]) + r[i] <= |TargetsFlat(d, target)| &&
            TargetsFlat(d, target)[Sum(r[..i])..Sum(r[..i]) + r[i]] == KeptTokens(d, target[i])
  {
    var rows := KeptRows(d, target);
    var r, all := DerivedTargetLengths(d, target), TargetsFlat(d, target);
    assert r == RowLengths(rows) && all == Concat(rows) && rows[i] == KeptTokens(d, target[i]) by {
      KeptRowsShape(d, target);
    }
    ConcatSlices(rows, i);
  }

  /** The kept tokens of every row. */
  function KeptRows(d: Dict, target: seq<seq<int>>): seq<seq<int>>
  {
    if target == [] then [] else [KeptTokens(d, target[0])] + KeptRows(d, target[1..])
  }

  /** All rows, one after another. */
  function Concat(rows: seq<seq<int>>): seq<int>
  {
    if rows == [] then [] else rows[0] + Concat(rows[1..])
  }

  /** The length of every row. */
  function RowLengths(rows: seq<seq<int>>): (r: seq<int>)
    ensures |r| == |rows|
    ensures forall i :: 0 <= i < |rows| ==> r[i] == |rows[i]|
  {
    if rows == [] then [] else [|rows[0]|] + RowLengths(rows[1..])
  }

  /** The flat targets and their derived lengths are those of the kept rows. */
  lemma {:induction false} KeptRowsShape(d: Dict, target: seq<seq<int>>)
    ensures |KeptRows(d, target)| == |target|
    ensures forall i :: 0 <= i < |target| ==> KeptRows(d, target)[i] == KeptTokens(d, target[i])
    ensures TargetsFlat(d, target) == Concat(KeptRows(d, target))
    ensures DerivedTargetLengths(d, target) == RowLengths(KeptRows(d, target))
  {
    if target != [] {
      KeptRowsShape(d, target[1..]);
      MaskedSelectLength(target[0], TargetMask(d, target[0]));
    }
  }

  /**
   * In a concatenation, row `i` sits right after the first `i` rows: the
   * slice that starts at the sum of their lengths and is as long as row `i`.
   */
  lemma {:induction false} ConcatSlices(rows: seq<seq<int>>, i: nat)
    requires i < |rows|
    ensures var r := RowLengths(rows);
            0 <= Sum(r[..i]) && Sum(r[..i]) + r[i] <= |Concat(rows)| &&
            Concat(rows)[Sum(r[..i])..Sum(r[..i]) + r[i]] == rows[i]
  {
    var r, all := RowLengths(rows), Concat(rows);
    assert 0 <= Sum(r[..i]) && Sum(r[..i]) + r[i] <= |all| && all[Sum(r[..i])..Sum(r[..i]) + r[i]] == rows[i] by {
      var rt, head, flat := RowLengths(rows[1..]), rows[0], Concat(rows[1..]);
      assert all == head + flat && r[0] == |head| && r[1..] == rt;
      if i == 0 {
        SliceFirst(all, head, flat, r);
      } else {
        assert 0 <= Sum(rt[..i - 1]) && Sum(rt[..i - 1]) + rt[i - 1] <= |flat| &&
               flat[Sum(rt[..i - 1])..Sum(rt[..i - 1]) + rt[i - 1]] == rows[i] by {
          ConcatSlices(rows[1..], i - 1);
          assert rows[1..][i - 1] == rows[i];
        }
        SliceStep(all, head, flat, r, rt, i, rows[i]);
      }
    }
  }

  lemma SliceFirst(all: seq<int>, head: seq<int>, flat: seq<int>, r: seq<int>)
    requires all == head + flat
    requires |r| > 0 && r[0] == |head|
    ensures 0 <= Sum(r[..0]) && Sum(r[..0]) + r[0] <= |all| && all[Sum(r[..0])..Sum(r[..0]) + r[0]] == head
  {
    assert r[..0] == [];
  }

  /** A row found in the tail's slice is found one row further on once the head row is prepended. */
  lemma SliceStep(all: seq<int>, head: seq<int>, flat: seq<int>, r: seq<int>, rt: seq<int>, i: nat, row: seq<int>)
    requires all == head + flat
    requires |r| == |rt| + 1 && r[0] == |head| && r[1..] == rt
    requires 1 <= i <= |rt|
    requires 0 <= rt[i - 1] && 0 <= Sum(rt[..i - 1]) && Sum(rt[..i - 1]) + rt[i - 1] <= |flat|
    requires flat[Sum(rt[..i - 1])..Sum(rt[..i - 1]) + rt[i - 1]] == row
    ensures 0 <= Sum(r[..i]) && Sum(r[..i]) + r[i] <= |all| && all[Sum(r[..i])..Sum(r[..i]) + r[i]] == row
  {
    var a, b := Sum(rt[..i - 1]), rt[i - 1];
    assert r[..i][1..] == rt[..i - 1];
    assert Sum(r[..i]) == |head| + a;
    assert all[|head| + a..|head| + a + b] == flat[a..a + b];
  }

  /** The flat target list holds no pad and no eos. */
  lemma {:induction false} TargetsFlatClean(d: Dict, target: seq<seq<int>>)
    ensures forall t :: t in TargetsFlat(d, target) ==> Kept(d, t)
  {
    if target != [] {
      TargetsFlatClean(d, target[1..]);
      KeptTokensCounts(d, target[0]);
      forall t | t in KeptTokens(d, target[0]) ensures Kept(d, t) {
        assert multiset(KeptTokens(d, target[0]))[t] > 0;
      }
    }
  }

  // ---------------------------------------------------------------------------
  // Input lengths

  /** `(~padding_mask).long().sum(-1)` for one utterance: its non-padding frames. */
  function NonPaddingFrames(paddingRow: seq<bool>): (n: nat)
    ensures n <= |paddingRow|
    ensures n + CountTrue(paddingRow) == |paddingRow|
  {
    if paddingRow == [] then 0 else (if paddingRow[0] then 0 else 1) + NonPaddingFrames(paddingRow[1..])
  }

  /** Without padding every frame of an utterance counts. */
  lemma {:induction false} NoPaddingCountsAllFrames(paddingRow: seq<bool>)
    requires forall j :: 0 <= j < |paddingRow| ==> !paddingRow[j]
    ensures NonPaddingFrames(paddingRow) == |paddingRow|
  {
    if paddingRow != [] {
      NoPaddingCountsAllFrames(paddingRow[1..]);
    }
  }

  function NonPaddingFramesAll(paddingMask: seq<seq<bool>>): (r: seq<int>)
    ensures |r| == |paddingMask|
    ensures forall i :: 0 <= i < |paddingMask| ==> r[i] == NonPaddingFrames(paddingMask[i])
  {
    if paddingMask == [] then [] else [NonPaddingFrames(paddingMask[0])] + NonPaddingFramesAll(paddingMask[1..])
  }

  /**
   * The input lengths of the CTC loss: `src_lengths` when the batch has them,
   * else the non-padding frame counts of the encoder's padding mask, else the
   * full output length `frames` for each of the `batch` utterances.
   */
  function InputLengths(srcLengths: Option<seq<int>>, paddingMask: Option<seq<seq<bool>>>,
                        frames: nat, batch: nat): (r: seq<int>)
    ensures srcLengths.Some? ==> r == srcLengths.value
    ensures srcLengths.None? && paddingMask.Some? ==>
              |r| == |paddingMask.value| &&
              forall i :: 0 <= i < |r| ==>
                (0 <= r[i] <= |paddingMask.value[i]| &&
                 r[i] == |paddingMask.value[i]| - CountTrue(paddingMask.value[i]))
    ensures srcLengths.None? && paddingMask.None? ==>
              |r| == batch && forall i :: 0 <= i < batch ==> r[i] == frames
  {
    if srcLengths.Some? then srcLengths.value
    else if paddingMask.Some? then NonPaddingFramesAll(paddingMask.value)
    else Repeat(frames as int, batch)
  }

  /**
   * An encoder padding mask that pads nothing gives the same input lengths as
   * no mask at all: every utterance uses all `frames` output frames.
   */
  lemma InputLengthsWithoutPadding(paddingMask: seq<seq<bool>>, frames: nat)
    requires forall i :: 0 <= i < |paddingMask| ==> |paddingMask[i]| == frames
    requires forall i, j :: 0 <= i < |paddingMask| && 0 <= j < |paddingMask[i]| ==> !paddingMask[i][j]
    ensures InputLengths(None, Some(paddingMask), frames, |paddingMask|) ==
            InputLengths(None, None, frames, |paddingMask|)
  {
    var r := InputLengths(None, Some(paddingMask), frames, |paddingMask|);
    forall i | 0 <= i < |paddingMask| ensures r[i] == frames {
      NoPaddingCountsAllFrames(paddingMask[i]);
    }
  }

  // ---------------------------------------------------------------------------
  // Batch size figures

  /** `sample["ntokens"]` when present, otherwise the sum of the target lengths. */
  function NTokens(given: Option<int>, targetLengths: seq<int>): (n: int)
    ensures given.Some? ==> n == given.value
    ensures given.None? ==> n == Sum(targetLengths)
  {
    if given.Some? then given.value else Sum(targetLengths)
  }

  /** The gradient denominator: sentences under `sentence_avg`, tokens otherwise. */
  function SampleSize(sentenceAvg: bool, batch: nat, ntokens: int): (s: int)
    ensures sentenceAvg ==> s == batch
    ensures !sentenceAvg ==> s == ntokens
  {
    if sentenceAvg then batch else ntokens
  }

  /**
   * With neither `ntokens` nor `target_lengths` in the batch, the token count
   * is the number of kept target tokens.
   */
  lemma NTokensCountsKeptTargets(d: Dict, target: seq<seq<int>>)
    ensures NTokens(None, TargetLengths(d, target, None)) == |TargetsFlat(d, target)|
  {
    DerivedLengthsCoverTargets(d, target);
  }
}

=== FILE: metrics.dfy ===
/**
 * The logging record a forward pass returns and its aggregation by
 * `reduce_metrics`: field-wise sums over all records, the loss in bits per
 * sample, and the error rates derived only over a positive denominator.
 */
module Metrics {
  import opened Common
  import opened Lengths
  import opened Evaluation

  /** A logging record: named numeric fields, any of which may be absent. */
  type Record = map<string, real>

  const LossKey := "loss"
  const NTokensKey := "ntokens"
  const NSentencesKey := "nsentences"
  const SampleSizeKey := "sample_size"
  const CErrorsKey := "c_errors"
  const CTotalKey := "c_total"
  const WErrorsKey := "w_errors"
  const WvErrorsKey := "wv_errors"
  const WTotalKey := "w_total"

  /** Every field `reduce_metrics` reads. */
  const Fields: set<string> := {LossKey, NTokensKey, NSentencesKey, SampleSizeKey,
                                CErrorsKey, CTotalKey, WErrorsKey, WvErrorsKey, WTotalKey}

  /** `math.log(2)` as a double. */
  const Ln2: real := 0.6931471805599453

  /** `log.get(key, 0)`. */
  function Get(r: Record, key: string): real
  {
    if key in r then r[key] else 0.0
  }

  /** `sum(log.get(key, 0) for log in logging_outputs)`. */
  function Total(rs: seq<Record>, key: string): real
  {
    if rs == [] then 0.0 else Get(rs[0], key) + Total(rs[1..], key)
  }

  lemma {:induction false} TotalAppend(a: seq<Record>, b: seq<Record>, key: string)
    ensures Total(a + b, key) == Total(a, key) + Total(b, key)
  {
    if a == [] {
      assert a + b == b;
    } else {
      assert (a + b)[1..] == a[1..] + b;
      TotalAppend(a[1..], b, key);
    }
  }

  /** A field every record leaves out sums to zero. */
  lemma {:induction false} TotalOfAbsentField(rs: seq<Record>, key: string)
    requires forall i :: 0 <= i < |rs| ==> key !in rs[i]
    ensures Total(rs, key) == 0.0
  {
    if rs != [] {
      TotalOfAbsentField(rs[1..], key);
    }
  }

  /**
   * The logging record of one forward pass; the five error counters are
   * present only when the model was evaluated.
   */
  function ForwardRecord(loss: real, ntokens: int, nsentences: nat, sampleSize: int,
                         counts: Option<Counts>): (r: Record)
    ensures Get(r, LossKey) == loss && Get(r, NTokensKey) == ntokens as real
    ensures Get(r, NSentencesKey) == nsentences as real && Get(r, SampleSizeKey) == sampleSize as real
    ensures counts.None? ==> CErrorsKey !in r && CTotalKey !in r && WErrorsKey !in r &&
                              WvErrorsKey !in r && WTotalKey !in r
    ensures counts.Some? ==> Get(r, CErrorsKey) == counts.value.cErrors as real &&
                             Get(r, CTotalKey) == counts.value.cTotal as real &&
                             Get(r, WErrorsKey) == counts.value.wErrors as real &&
                             Get(r, WvErrorsKey) == counts.value.wvErrors as real &&
                             Get(r, WTotalKey) == counts.value.wTotal as real
  {
    var base := map[LossKey := loss, NTokensKey := ntokens as real,
                    NSentencesKey := nsentences as real, SampleSizeKey := sampleSize as real];
    if counts.None? then base
    else
      var c := counts.value;
      base[WvErrorsKey := c.wvErrors as real][WErrorsKey := c.wErrors as real]
          [WTotalKey := c.wTotal as real][CErrorsKey := c.cErrors as real][CTotalKey := c.cTotal as real]
  }

  /** What `reduce_metrics` logs. */
  datatype Reduced = Reduced(
    loss: real, ntokens: real, nsentences: real, nllLoss: Option<real>,
    cErrors: real, cTotal: real, wErrors: real, wvErrors: real, wTotal: real,
    uer: Option<real>, wer: Option<real>, rawWer: Option<real>)

  /** `num * 100.0 / den` when `den > 0`: a derived percentage, logged only over a positive total. */
  function Rate(num: real, den: real): (r: Option<real>)
    ensures r.Some? <==> den > 0.0
    ensures r.Some? ==> r.value * den == 100.0 * num
  {
    if den > 0.0 then Some(num * 100.0 / den) else None
  }

  /**
   * `reduce_metrics`. Python raises on the loss when the summed sample size is
   * zero, and on the nll loss when the sample size differs from a zero token
   * count.
   */
  function Reduce(rs: seq<Record>): (r: Result<Reduced>)
    ensures r.Failure? <==> Total(rs, SampleSizeKey) == 0.0 ||
                            (Total(rs, SampleSizeKey) != Total(rs, NTokensKey) && Total(rs, NTokensKey) == 0.0)
    ensures r.Failure? ==> r.error == DivisionByZero
    ensures r.Success? ==> r.value.loss * Total(rs, SampleSizeKey) * Ln2 == Total(rs, LossKey)
    ensures r.Success? ==> (r.value.nllLoss.Some? <==> Total(rs, SampleSizeKey) != Total(rs, NTokensKey))
    ensures r.Success? && r.value.nllLoss.Some? ==> r.value.nllLoss.value * Total(rs, NTokensKey) * Ln2 == Total(rs, LossKey)
    ensures r.Success? ==> r.value.cErrors == Total(rs, CErrorsKey) && r.value.cTotal == Total(rs, CTotalKey)
    ensures r.Success? ==> r.value.wErrors == Total(rs, WErrorsKey) && r.value.wvErrors == Total(rs, WvErrorsKey)
    ensures r.Success? ==> r.value.wTotal == Total(rs, WTotalKey)
    ensures r.Success? ==> r.value.ntokens == Total(rs, NTokensKey) && r.value.nsentences == Total(rs, NSentencesKey)
    ensures r.Success? ==> r.value.uer == Rate(Total(rs, CErrorsKey), Total(rs, CTotalKey))
    ensures r.Success? ==> r.value.wer == Rate(Total(rs, WErrorsKey), Total(rs, WTotalKey))
    ensures r.Success? ==> r.value.rawWer == Rate(Total(rs, WvErrorsKey), Total(rs, WTotalKey))
  {
    var lossSum := Total(rs, LossKey);
    var ntokens := Total(rs, NTokensKey);
    var sampleSize := Total(rs, SampleSizeKey);
    if sampleSize == 0.0 then Failure(DivisionByZero)
    else if sampleSize != ntokens && ntokens == 0.0 then Failure(DivisionByZero)
    else
      var cErrors := Total(rs, CErrorsKey);
      var cTotal := Total(rs, CTotalKey);
      var wErrors := Total(rs, WErrorsKey);
      var wvErrors := Total(rs, WvErrorsKey);
      var wTotal := Total(rs, WTotalKey);
      Success(Reduced(
        lossSum / sampleSize / Ln2, ntokens, Total(rs, NSentencesKey),
        if sampleSize != ntokens then Some(lossSum / ntokens / Ln2) else None,
        cErrors, cTotal, wErrors, wvErrors, wTotal,
        Rate(cErrors, cTotal), Rate(wErrors, wTotal), Rate(wvErrors, wTotal)))
  }

  /** Two record lists with the same field totals reduce to the same metrics. */
  lemma ReduceDependsOnTotalsOnly(a: seq<Record>, b: seq<Record>)
    requires forall k :: k in Fields ==> Total(a, k) == Total(b, k)
    ensures Reduce(a) == Reduce(b)
  {
    assert LossKey in Fields && NTokensKey in Fields && NSentencesKey in Fields && SampleSizeKey in Fields;
    assert CErrorsKey in Fields && CTotalKey in Fields && WErrorsKey in Fields;
    assert WvErrorsKey in Fields && WTotalKey in Fields;
  }

  /** The field-wise sum of a list of records, as one record. */
  function Summed(rs: seq<Record>): (r: Record)
    ensures r.Keys == Fields
    ensures forall k :: k in Fields ==> r[k] == Total(rs, k)
  {
    map k | k in Fields :: Total(rs, k)
  }

  /**
   * Summing the records before reducing, as a distributed run does when the
   * outputs are declared summable, logs the same metrics as reducing them all.
   */
  lemma ReduceOfSummed(rs: seq<Record>)
    ensures Reduce([Summed(rs)]) == Reduce(rs)
  {
    forall k | k in Fields ensures Total([Summed(rs)], k) == Total(rs, k) {
      assert [Summed(rs)][1..] == [];
    }
    ReduceDependsOnTotalsOnly([Summed(rs)], rs);
  }

  /** Workers' records may be reduced in any order. */
  lemma ReduceOrderIndependent(a: seq<Record>, b: seq<Record>)
    ensures Reduce(a + b) == Reduce(b + a)
  {
    forall k | k in Fields ensures Total(a + b, k) == Total(b + a, k) {
      TotalAppend(a, b, k);
      TotalAppend(b, a, k);
    }
    ReduceDependsOnTotalsOnly(a + b, b + a);
  }

  /** Summing each worker's records first and then reducing gives the same metrics. */
  lemma ReduceAcrossWorkers(a: seq<Record>, b: seq<Record>)
    ensures Reduce([Summed(a), Summed(b)]) == Reduce(a + b)
  {
    forall k | k in Fields ensures Total([Summed(a), Summed(b)], k) == Total(a + b, k) {
      TotalAppend(a, b, k);
      assert [Summed(a), Summed(b)][1..] == [Summed(b)];
      assert [Summed(b)][1..] == [];
      assert Get(Summed(a), k) == Total(a, k) && Get(Summed(b), k) == Total(b, k);
      assert Total([Summed(b)], k) == Get(Summed(b), k) + Total([], k);
      assert Total([Summed(a), Summed(b)], k) == Get(Summed(a), k) + Total([Summed(b)], k);
    }
    ReduceDependsOnTotalsOnly([Summed(a), Summed(b)], a + b);
  }

  /** `logging_outputs_can_be_summed`: the declaration is justified by `ReduceOfSummed`. */
  function LoggingOutputsCanBeSummed(): (b: bool)
    ensures b ==> forall rs :: Reduce([Summed(rs)]) == Reduce(rs)
  {
    forall rs ensures Reduce([Summed(rs)]) == Reduce(rs) {
      ReduceOfSummed(rs);
    }
    true
  }

  /** Records of training steps carry no counters, so no rate is derived from them. */
  lemma TrainingRecordsDeriveNoRates(rs: seq<Record>)
    requires forall i :: 0 <= i < |rs| ==> CTotalKey !in rs[i] && WTotalKey !in rs[i]
    requires Reduce(rs).Success?
    ensures Reduce(rs).value.uer.None? && Reduce(rs).value.wer.None? && Reduce(rs).value.rawWer.None?
  {
    TotalOfAbsentField(rs, CTotalKey);
    TotalOfAbsentField(rs, WTotalKey);
  }

  /** What one forward pass hands to the logger, before it becomes a record. */
  datatype ForwardOutput = ForwardOutput(loss: real, ntokens: int, nsentences: nat, sampleSize: int,
                                         counts: Option<Counts>)

  /** The logging records of a sequence of forward passes. */
  function Records(outs: seq<ForwardOutput>): seq<Record>
  {
    seq(|outs|, i requires 0 <= i < |outs| =>
      ForwardRecord(outs[i].loss, outs[i].ntokens, outs[i].nsentences, outs[i].sampleSize, outs[i].counts))
  }

  /** Two fields that agree in every record have the same total. */
  lemma {:induction false} TotalsAgree(rs: seq<Record>, k1: string, k2: string)
    requires forall i :: 0 <= i < |rs| ==> Get(rs[i], k1) == Get(rs[i], k2)
    ensures Total(rs, k1) == Total(rs, k2)
  {
    if rs != [] {
      TotalsAgree(rs[1..], k1, k2);
    }
  }

  /**
   * Training passes log no error counters, so reducing their records derives
   * none of the three rates.
   */
  lemma TrainingPassesDeriveNoRates(outs: seq<ForwardOutput>)
    requires forall i :: 0 <= i < |outs| ==> outs[i].counts.None?
    ensures Reduce(Records(outs)).Success? ==>
              Reduce(Records(outs)).value.uer.None? && Reduce(Records(outs)).value.wer.None? &&
              Reduce(Records(outs)).value.rawWer.None?
  {
    var rs := Records(outs);
    if Reduce(rs).Success? {
      TrainingRecordsDeriveNoRates(rs);
    }
  }

  /**
   * Without `sentence_avg` every pass reports its token count as its sample
   * size, so the two sums agree: the reduction fails exactly when no token was
   * seen, and it never logs a separate nll loss.
   */
  lemma TokenAveragedPassesLogNoNllLoss(outs: seq<ForwardOutput>)
    requires forall i :: 0 <= i < |outs| ==>
               outs[i].sampleSize == SampleSize(false, outs[i].nsentences, outs[i].ntokens)
    ensures Reduce(Records(outs)).Failure? <==> Total(Records(outs), NTokensKey) == 0.0
    ensures Reduce(Records(outs)).Success? ==> Reduce(Records(outs)).value.nllLoss.None?
  {
    TotalsAgree(Records(outs), SampleSizeKey, NTokensKey);
  }

  /**
   * Under `sentence_avg` with one sentence id per target row, the logged loss
   * is the summed loss per sentence, in bits.
   */
  lemma SentenceAveragedLossIsPerSentence(outs: seq<ForwardOutput>)
    requires forall i :: 0 <= i < |outs| ==>
               outs[i].sampleSize == SampleSize(true, outs[i].nsentences, outs[i].ntokens)
    ensures Reduce(Records(outs)).Failure? <==>
              Total(Records(outs), NSentencesKey) == 0.0 ||
              (Total(Records(outs), NSentencesKey) != Total(Records(outs), NTokensKey) &&
               Total(Records(outs), NTokensKey) == 0.0)
    ensures Reduce(Records(outs)).Success? ==>
              Reduce(Records(outs)).value.loss == Total(Records(outs), LossKey) / Total(Records(outs), NSentencesKey) / Ln2
  {
    var rs := Records(outs);
    assert Total(rs, SampleSizeKey) == Total(rs, NSentencesKey) by {
      forall i | 0 <= i < |rs| ensures Get(rs[i], SampleSizeKey) == Get(rs[i], NSentencesKey) {
        var o := outs[i];
        assert rs[i] == ForwardRecord(o.loss, o.ntokens, o.nsentences, o.sampleSize, o.counts);
      }
      TotalsAgree(rs, SampleSizeKey, NSentencesKey);
    }
  }

  /** Each record carries the word error counters of its validation batch. */
  predicate CarriesWordErrors(records: seq<Record>, d: Dict, blank: int, batches: seq<seq<EvalItem>>)
    requires |records| == |batches|
  {
    forall i :: 0 <= i < |records| ==>
      Get(records[i], WErrorsKey) == BatchCounts(d, blank, batches[i]).wErrors as real &&
      Get(records[i], WvErrorsKey) == BatchCounts(d, blank, batches[i]).wvErrors as real
  }

  /** A forward record of a validation batch carries that batch's counters. */
  lemma ForwardRecordCarriesWordErrors(d: Dict, blank: int, batch: seq<EvalItem>,
                                       loss: real, ntokens: int, nsentences: nat, sampleSize: int)
    ensures CarriesWordErrors([ForwardRecord(loss, ntokens, nsentences, sampleSize, Some(BatchCounts(d, blank, batch)))],
                              d, blank, [batch])
  {
  }

  /**
   * Validation records from a model without a word decoder report the same
   * word error rate and raw word error rate.
   */
  lemma NoDecoderWerEqualsRawWer(d: Dict, blank: int, batches: seq<seq<EvalItem>>, records: seq<Record>)
    requires |records| == |batches|
    requires forall i, j :: 0 <= i < |batches| && 0 <= j < |batches[i]| ==> batches[i][j].decodedWords.None?
    requires CarriesWordErrors(records, d, blank, batches)
    requires Reduce(records).Success?
    ensures Reduce(records).value.wer == Reduce(records).value.rawWer
  {
    SameWordErrorTotals(d, blank, batches, records);
  }

  lemma {:induction false} SameWordErrorTotals(d: Dict, blank: int, batches: seq<seq<EvalItem>>, records: seq<Record>)
    requires |records| == |batches|
    requires forall i, j :: 0 <= i < |batches| && 0 <= j < |batches[i]| ==> batches[i][j].decodedWords.None?
    requires CarriesWordErrors(records, d, blank, batches)
    ensures Total(records, WErrorsKey) == Total(records, WvErrorsKey)
  {
    if records != [] {
      NoDecoderSameWordErrors(d, blank, batches[0]);
      SameWordErrorTotals(d, blank, batches[1..], records[1..]);
    }
  }
}

=== FILE: pad_list.dfy ===
/**
 * `pad_list`: right-pad a list of variable-length token rows into one
 * rectangular tensor whose unused cells hold a pad value.
 */
module PadList {
  import opened Common

  /** `max(x.size(0) for x in xs)`: the length of the longest row. */
  function MaxLen(xs: seq<seq<int>>): (m: nat)
    requires |xs| > 0
    ensures forall i :: 0 <= i < |xs| ==> |xs[i]| <= m
    ensures exists i :: 0 <= i < |xs| && |xs[i]| == m
  {
    if |xs| == 1 then |xs[0]|
    else
      var rest := MaxLen(xs[1..]);
      if |xs[0]| >= rest then |xs[0]|
      else
        assert exists i :: 1 <= i < |xs| && |xs[i]| == rest by {
          var k :| 0 <= k < |xs[1..]| && |xs[1..][k]| == rest;
          assert |xs[k + 1]| == rest;
        }
        rest
  }

  /**
   * Allocate a `|xs|` by `MaxLen(xs)` tensor filled with `padValue`, then copy
   * each row into the front of its line. The source takes `max` of an empty
   * generator when `xs` is empty, which raises.
   */
  method PadList(xs: seq<seq<int>>, padValue: int) returns (r: Result<array2<int>>)
    ensures r.Failure? <==> xs == []
    ensures r.Failure? ==> r.error == EmptyList
    ensures r.Success? ==> fresh(r.value)
    ensures r.Success? ==> r.value.Length0 == |xs| && r.value.Length1 == MaxLen(xs)
    ensures r.Success? ==> forall i, j :: 0 <= i < |xs| && 0 <= j < |xs[i]| ==> r.value[i, j] == xs[i][j]
    ensures r.Success? ==> forall i, j :: 0 <= i < |xs| && |xs[i]| <= j < r.value.Length1 ==> r.value[i, j] == padValue
  {
    if |xs| == 0 {
      return Failure(EmptyList);
    }
    var maxLen := MaxLen(xs);
    var pad := new int[|xs|, maxLen]((_, _) => padValue);
    for i := 0 to |xs|
      invariant forall k, j :: 0 <= k < i && 0 <= j < |xs[k]| ==> pad[k, j] == xs[k][j]
      invariant forall k, j :: 0 <= k < i && |xs[k]| <= j < maxLen ==> pad[k, j] == padValue
      invariant forall k, j :: i <= k < |xs| && 0 <= j < maxLen ==> pad[k, j] == padValue
    {
      forall j | 0 <= j < |xs[i]| {
        pad[i, j] := xs[i][j];
      }
    }
    return Success(pad);
  }
}

=== FILE: words.dfy ===
/**
 * Word structure of a letter-token row. In the letter dictionary a word
 * boundary is the token `|`; `str.split('|')` and `'|'.join(...)`, which the
 * criterion applies to the printed form of a row, are modelled here directly
 * on token indices.
 */
module Words {
  import opened Common

  /** `line.split('|')`: the pieces between boundary tokens (never an empty list). */
  function Split(s: seq<int>, sep: int): (ws: seq<seq<int>>)
    ensures |ws| >= 1
    ensures forall w :: w in ws ==> sep !in w
  {
    if s == [] then [[]]
    else if s[0] == sep then [[]] + Split(s[1..], sep)
    else
      var rest := Split(s[1..], sep);
      [[s[0]] + rest[0]] + rest[1..]
  }

  /** `'|'.join(ws)`. */
  function Join(ws: seq<seq<int>>, sep: int): seq<int>
  {
    if ws == [] then []
    else if |ws| == 1 then ws[0]
    else ws[0] + [sep] + Join(ws[1..], sep)
  }

  /** Joining the pieces of a split gives the row back. */
  lemma {:induction false} JoinSplit(s: seq<int>, sep: int)
    ensures Join(Split(s, sep), sep) == s
  {
    if s == [] {
    } else if s[0] == sep {
      JoinSplit(s[1..], sep);
      assert s == [sep] + s[1..];
    } else {
      var rest := Split(s[1..], sep);
      JoinSplit(s[1..], sep);
      if |rest| == 1 {
        assert s == [s[0]] + rest[0];
      } else {
        assert Join(rest, sep) == rest[0] + [sep] + Join(rest[1..], sep);
        var ws := Split(s, sep);
        assert ws[1..] == rest[1..];
        assert s == [s[0]] + s[1..];
      }
    }
  }

  lemma {:induction false} SplitWithoutSep(w: seq<int>, sep: int)
    requires sep !in w
    ensures Split(w, sep) == [w]
  {
    if w != [] {
      SplitWithoutSep(w[1..], sep);
      assert w == [w[0]] + w[1..];
    }
  }

  lemma {:induction false} SplitAfterWord(w: seq<int>, sep: int, rest: seq<int>)
    requires sep !in w
    ensures Split(w + [sep] + rest, sep) == [w] + Split(rest, sep)
  {
    if w == [] {
      assert w + [sep] + rest == [sep] + rest;
      assert ([sep] + rest)[1..] == rest;
    } else {
      var s := w + [sep] + rest;
      assert s[0] == w[0];
      assert s[1..] == w[1..] + [sep] + rest;
      SplitAfterWord(w[1..], sep, rest);
      assert [w[0]] + w[1..] == w;
    }
  }

  /** Splitting a join of separator-free words gives the words back. */
  lemma {:induction false} SplitJoin(ws: seq<seq<int>>, sep: int)
    requires |ws| >= 1
    requires forall w :: w in ws ==> sep !in w
    ensures Split(Join(ws, sep), sep) == ws
  {
    if |ws| == 1 {
      SplitWithoutSep(ws[0], sep);
    } else {
      assert ws[0] in ws;
      assert forall w :: w in ws[1..] ==> w in ws;
      SplitJoin(ws[1..], sep);
      SplitAfterWord(ws[0], sep, Join(ws[1..], sep));
      assert ws == [ws[0]] + ws[1..];
    }
  }

  /** The multiset of all tokens of all words. */
  function Tokens(ws: seq<seq<int>>): multiset<int>
  {
    if ws == [] then multiset{} else multiset(ws[0]) + Tokens(ws[1..])
  }

  lemma {:induction false} TokensAppend(a: seq<seq<int>>, b: seq<seq<int>>)
    ensures Tokens(a + b) == Tokens(a) + Tokens(b)
  {
    if a == [] {
      assert a + b == b;
    } else {
      assert (a + b)[1..] == a[1..] + b;
      TokensAppend(a[1..], b);
    }
  }

  /** Removing the word at `j` removes that one word from the multiset of words ... */
  lemma RemoveAtWords(vs: seq<seq<int>>, j: nat)
    requires j < |vs|
    ensures multiset(vs[..j] + vs[j + 1..]) == multiset(vs) - multiset{vs[j]}
  {
    assert vs == vs[..j] + [vs[j]] + vs[j + 1..];
  }

  /** ... and its tokens from the multiset of tokens. */
  lemma RemoveAtTokens(vs: seq<seq<int>>, j: nat)
    requires j < |vs|
    ensures Tokens(vs) == Tokens(vs[..j] + vs[j + 1..]) + multiset(vs[j])
  {
    var front, back := vs[..j], vs[j + 1..];
    assert vs == front + ([vs[j]] + back);
    TokensAppend(front, [vs[j]] + back);
    assert Tokens([vs[j]] + back) == multiset(vs[j]) + Tokens(back) by {
      assert ([vs[j]] + back)[1..] == back;
    }
    TokensAppend(front, back);
  }

  /** Reordering the words does not change the tokens they hold. */
  lemma {:induction false} TokensOfPermutation(ws: seq<seq<int>>, vs: seq<seq<int>>)
    requires multiset(ws) == multiset(vs)
    ensures Tokens(ws) == Tokens(vs)
    decreases |ws|
  {
    if ws == [] {
      assert |vs| == |multiset(vs)| == 0;
    } else {
      var j := TailPermutation(ws, vs);
      var rest := vs[..j] + vs[j + 1..];
      TokensOfPermutation(ws[1..], rest);
      RemoveAtTokens(vs, j);
    }
  }

  /** Taking the first word off `ws` and the same word off `vs` keeps them reorderings of each other. */
  lemma TailPermutation(ws: seq<seq<int>>, vs: seq<seq<int>>) returns (j: nat)
    requires ws != [] && multiset(ws) == multiset(vs)
    ensures j < |vs| && vs[j] == ws[0]
    ensures multiset(ws[1..]) == multiset(vs[..j] + vs[j + 1..])
  {
    var x := ws[0];
    assert x in multiset(vs);
    assert x in vs;
    j :| 0 <= j < |vs| && vs[j] == x;
    RemoveAtWords(vs, j);
    assert ws == [x] + ws[1..];
  }

  /** The tokens of a joined line: the words' tokens plus one boundary per gap. */
  lemma {:induction false} JoinTokens(ws: seq<seq<int>>, sep: int)
    requires |ws| >= 1
    ensures multiset(Join(ws, sep)) == Tokens(ws) + multiset{}[sep := |ws| - 1]
  {
    if |ws| == 1 {
      assert ws[1..] == [];
    } else {
      JoinTokens(ws[1..], sep);
      var m := multiset{}[sep := |ws| - 2];
      assert multiset{}[sep := |ws| - 1] == m + multiset{sep};
    }
  }

  /** Joining a reordering of the words yields a line with the same tokens. */
  lemma JoinPermutation(ws: seq<seq<int>>, vs: seq<seq<int>>, sep: int)
    requires |ws| >= 1
    requires multiset(ws) == multiset(vs)
    ensures multiset(Join(vs, sep)) == multiset(Join(ws, sep))
    ensures |Join(vs, sep)| == |Join(ws, sep)|
  {
    assert |vs| == |multiset(vs)| == |multiset(ws)| == |ws|;
    JoinTokens(ws, sep);
    JoinTokens(vs, sep);
    TokensOfPermutation(ws, vs);
    assert |multiset(Join(vs, sep))| == |Join(vs, sep)|;
  }

  /** The non-empty entries of a word list, in order. */
  function NonEmpty(ws: seq<seq<int>>): (r: seq<seq<int>>)
    ensures forall w :: w in r ==> w in ws && w != []
    ensures |r| <= |ws|
  {
    if ws == [] then []
    else if ws[0] == [] then NonEmpty(ws[1..])
    else [ws[0]] + NonEmpty(ws[1..])
  }

  /**
   * The words of a token row under the "letter" post-processing:
   * `post_process(d.string(units), "letter").split()` drops the spaces between
   * symbols, turns every `|` into a space and splits on runs of white space,
   * so the words are the non-empty runs of visible tokens between boundaries.
   */
  function LetterWords(d: Dict, units: seq<int>): seq<seq<int>>
  {
    NonEmpty(Split(Visible(d, units), d.sep))
  }

  /**
   * The letter words are non-empty and free of boundaries, and together they
   * hold no token the printed row does not.
   */
  lemma LetterWordsShape(d: Dict, units: seq<int>)
    ensures forall w :: w in LetterWords(d, units) ==> w != [] && d.sep !in w
    ensures Tokens(LetterWords(d, units)) <= multiset(Visible(d, units))
  {
    var pieces := Split(Visible(d, units), d.sep);
    JoinSplit(Visible(d, units), d.sep);
    JoinTokens(pieces, d.sep);
    NonEmptyTokens(pieces);
  }

  lemma {:induction false} NonEmptyTokens(ws: seq<seq<int>>)
    ensures Tokens(NonEmpty(ws)) == Tokens(ws)
  {
    if ws != [] {
      NonEmptyTokens(ws[1..]);
    }
  }
}
